=== FILE: README.md ===
# dismusic `Music` cog: a verified model

This project models the decision logic of the `Music` cog of dismusic
(`dismusic/music.py`), a Discord music bot built on wavelink and yt-dlp. The model is written
in Dafny. The cog's I/O is replaced by parameters:

- The GitHub gist API and plain HTTP GETs become `Cookies.Web`.
- The yt-dlp extractor becomes `Resolve.ExtractCall -> Resolve.ExtractAnswer`.
- `_is_url` becomes `isUrl: string -> bool`.
- The result of `player.play` / `node.play` becomes `Music.World.playerPlays` / `nodePlays`.
- The outcome of a provider search on a node becomes `Nodes.SearchOutcome`, where the 20-second
  timeout is the `TimedOut` label.
- The event-loop clock becomes a `nat` called `now`.

Modules, one per concern of the source:

- `Wrappers`: `Option`, standing for Python's `None` versus a value.
- `Text`: the Python string operations the cog relies on:
  - truthiness;
  - substring `in`;
  - `strip` and `rstrip` with a character set;
  - the last `/`-segment;
  - decimal formatting of a status code.
- `Audio`: `_choose_audio_url_from_info`. It chooses the first entry of a container, or else the
  record itself. A live-safe direct `url` wins. Otherwise the choice is the stable descending
  sort of the audio formats by `(abr or 0, tbr or 0)`.
- `Gist`: the configured gist constants and `get_gist_id_from_url`, which covers:
  - the full-match id;
  - the leftmost `/hex{8,}` group followed by `/`, the end, or a final newline (Python's `$`);
  - the last path segment.

  It also holds the file-pick rule and the API round of `get_gist_raw_url`.
- `Providers`: the five-entry `track_providers` table and the provider-key resolution of the
  play command.
- `Nodes`: `get_nodes` as a stable insertion sort by `len(players)`, and the `NodePool` class,
  which models `wavelink.NodePool._nodes`. The search loop is a method with a `while` loop that
  walks a snapshot of the ranking and pops the nodes that time out.
- `Cookies`: the one-slot cookie cache as functions from the cache before to the cache after:
  - `_fetch_cookies_text`;
  - `_refresh_cookies`;
  - the gate of the `refreshcookies` command.
- `Resolve`: `_resolve_query_to_url_with_ytdlp` as a function that records every extractor
  call, in order, and the stream chosen.
- `Music`: the classes `Player` (its queue, source, playing flag and `track_provider`
  attribute) and `Cog` (the cookie cache fields). Their methods update those fields and are
  proved against the functions above:
  - the cookie methods;
  - the query resolution;
  - `play_direct_url_on_player`;
  - the provider fallback with its queueing loop;
  - `play_track_interaction`, whose whole effect is stated by the predicate `Responded`.

  The methods `Cog.ResolveWith`, `Cog.ExtractWithRetry` and `Cog.ChooseWithFollowUp` change no
  state. They are the step-by-step rendering of the functions `Resolve.ResolveQuery`,
  `Resolve.FirstCalls` / `Resolve.MainAnswer` and `Resolve.FromAnswer`, and each method's
  contract equates its results with its function.

## Model

| member | source | states |
|---|---|---|
| Audio.AudioFormats | dismusic/music.py:72 | the kept formats are exactly those whose `acodec` is not `"none"`, a missing codec included |
| Audio.IsAudio | dismusic/music.py:72 | a format passes the codec filter exactly when its `acodec` is missing or is not `"none"` |
| Audio.EntryOf | dismusic/music.py:65-68 | the record consulted is the record itself or one of its entries, and it is `entries[0]` when there are entries |
| Audio.HasDirectUrl | dismusic/music.py:69 | the record's own `url` is used exactly when it is present, non-empty and the record is not live |
| Audio.InsertDesc | dismusic/music.py:75 | one insertion step of the stable sort puts the new element first or leaves the old head first |
| Audio.InsertDescSorted | dismusic/music.py:75 | inserting into a descending sequence keeps it descending |
| Audio.InsertDescPermutes | dismusic/music.py:75 | an insertion adds exactly the inserted element |
| Audio.ConsSortedDesc | dismusic/music.py:75 | an element whose key is at least the head's extends a descending sequence |
| Audio.SortDesc | dismusic/music.py:75 | `sorted(..., reverse=True)` gives a permutation of its input that never increases in key |
| Audio.SortDescHead | dismusic/music.py:75 | the head of the sort is the first element unless the rest's head has a strictly larger key |
| Audio.ChooseAudio | dismusic/music.py:62-76 | a falsy info gives nothing; the choice is always taken from `entries[0]` or else the record; a truthy non-live `url` wins outright; otherwise there is a choice exactly when some format passes the codec filter, and its URL is such a format's URL |
| Audio.SortedAudioStartsWithFirstBest | dismusic/music.py:72-75 | the stable descending sort of the audio formats starts with the first best format in list order |
| Audio.FirstBestInRest | dismusic/music.py:72-75 | the first best format stays first best when an earlier element is dropped |
| Audio.AudioHeadStep | dismusic/music.py:72-75 | with an audio first element, the sort still starts with the first best format |
| Audio.ChoosesFirstBestAudio | dismusic/music.py:69-76 | without a usable direct URL, the chosen URL is the URL of the first audio format with the largest `(abr or 0, tbr or 0)` |
| Audio.OnlyFirstEntryConsulted | dismusic/music.py:65-66 | two containers with the same first entry give the same choice |
| Text.ContainsSlice | dismusic/music.py:157 | every slice of a string is a substring for Python's `in` |
| Text.LStrip | dismusic/music.py:216 | the result is a suffix; everything dropped is in the set; it does not start with a member of the set |
| Text.RStrip | dismusic/music.py:95 | the result is a prefix; everything dropped is in the set; it does not end with a member of the set |
| Text.Strip | dismusic/music.py:216 | The result of `strip(chars)` is the slice left after removing a prefix and a suffix made only of characters in the set; it neither starts nor ends with such a character, and it is empty exactly when every character is in the set. |
| Text.StripShape | dismusic/music.py:216 | a suffix cut after a prefix from the set, then cut before a suffix from the set, with neither cut able to go further, is the stripped slice |
| Text.StrippedEmpty | dismusic/music.py:216 | a stripped slice is empty exactly when the whole string is made of characters of the set |
| Text.StripIdempotent | dismusic/music.py:321 | stripping twice is stripping once |
| Text.AfterLastSlash | dismusic/music.py:95-97 | The result, like `split("/")[-1]`, is the suffix of the input that follows its last `/`, or the whole input when it has none, and it contains no `/`. |
| Text.DecimalString | dismusic/music.py:189 | `f"{status}"` is digits only, with no leading zero, and its decimal value is the status |
| Gist.HexRunLength | dismusic/music.py:92 | the greedy `[0-9a-fA-F]+` run from a position: all hex, and stopped at the end or a non-hex character |
| Gist.SearchSlashHex | dismusic/music.py:92 | `re.search` finds the leftmost position where the group matches, and there is none when it finds nothing |
| Gist.GroupAt | dismusic/music.py:94 | the captured group is a hex id of at least 8 digits |
| Gist.GistIdFromUrl | dismusic/music.py:87-100 | empty input gives `None`; an all-hex input of length 8 or more is returned unchanged; any id returned is all hex, has 8 or more digits and occurs in the input; otherwise the group of the leftmost `/`-hex-run match is returned, and `None` comes exactly when there is no such match and the last segment after trailing slashes is not a hex id either |
| Gist.GroupInside | dismusic/music.py:92-94 | the captured group is a substring of the input |
| Gist.LastSegmentInside | dismusic/music.py:95-99 | the last segment is a substring of the input |
| Gist.ConfiguredGistId | dismusic/music.py:36 | the configured page yields the id `002c3a85ca65cb2a80c0927a1cb0da61` |
| Gist.ConfiguredPageLayout | dismusic/music.py:36 | the configured page has 66 characters, a `/` at index 33 and the 32-digit id after it |
| Gist.ConfiguredPrefixRunsShort | dismusic/music.py:36 | no hex run of 8 or more starts after a `/` before the id |
| Gist.OnlyKey | dismusic/music.py:119 | `next(iter(files.values()))` of a one-file map picks its only file |
| Gist.PickRawUrl | dismusic/music.py:115-122 | the named file if it is present and non-empty; otherwise the only file when there is exactly one; otherwise `None` |
| Gist.ResolveRawUrl | dismusic/music.py:103-122 | no gist id means no URL; with an id, a failed API call gives no URL and a successful one gives the file pick over its `files` |
| Providers.LookupInvertsKeyOf | dismusic/music.py:337-343 | every class of the table is found under its own key |
| Providers.Lookup | dismusic/music.py:348-350 | `track_providers.get(key)` finds a class exactly for the five table keys, and the class found is listed under that key |
| Providers.ResolveProvider | dismusic/music.py:344-351 | explicit `"yt"` gives the playlist class when the query contains `"playlist"` and the track class otherwise; any other truthy explicit key is looked up; with no explicit key, a truthy `track_provider` attribute is looked up after the same `"yt"`-to-`"ytpl"` switch, an absent attribute defaults to `"yt"`, and a falsy attribute (`None` or `""`) gives no class |
| Nodes.InsertByLoad | dismusic/music.py:145 | one insertion step of the stable sort by load puts the node first or leaves the old head first |
| Nodes.InsertByLoadSorted | dismusic/music.py:145 | inserting into a sequence sorted by load keeps it sorted |
| Nodes.InsertByLoadPermutes | dismusic/music.py:145 | an insertion adds exactly the inserted node |
| Nodes.ConsLoadSorted | dismusic/music.py:145 | a node with no more load than the head extends a sorted sequence |
| Nodes.InsertByLoadStable | dismusic/music.py:145 | an insertion puts the node ahead of nodes of equal load and reorders no other nodes of one load |
| Nodes.RankByLoad | dismusic/music.py:144-145 | `get_nodes` returns a permutation of the pool whose load never decreases |
| Nodes.RankByLoadStable | dismusic/music.py:144-145 | among nodes of equal load, the ranking keeps pool order |
| Nodes.RankByLoadStableAll | dismusic/music.py:144-145 | for every load, the ranking keeps the pool order of the nodes with that load |
| Nodes.WithoutIds | dismusic/music.py:361 | removing identifiers never adds nodes |
| Nodes.WithoutIdsMembers | dismusic/music.py:361 | a node stays exactly when its identifier is not removed |
| Nodes.WithoutIdsDistinct | dismusic/music.py:361 | removal keeps identifiers distinct |
| Nodes.WithoutNoIds | dismusic/music.py:353 | removing nothing leaves the pool as it is |
| Nodes.WithoutIdsTwice | dismusic/music.py:361 | two removals in a row remove the union |
| Nodes.TimedOutIdsMembers | dismusic/music.py:359-362 | the evicted identifiers are exactly those of walked nodes that timed out |
| Nodes.StopIndex | dismusic/music.py:354-364 | every node before the stopping index continues the loop, and the node at it ends the loop |
| Nodes.Tried | dismusic/music.py:354-364 | the nodes searched are a prefix of the snapshot, in ranked order; all but the last continue, and the last ends the loop when the walk stops early |
| Nodes.EndOf | dismusic/music.py:354-364 | the loop is exhausted exactly when every node times out or raises a Lavalink error; otherwise the node at the stopping index decides: its returned result is the answer, and an exception of another kind aborts |
| Nodes.EvictsExactlyTimedOut | dismusic/music.py:352-364 | after the loop, a pool node is gone exactly when it was searched and timed out; nodes that raised Lavalink errors and nodes never searched stay |
| Nodes.EvictionStep | dismusic/music.py:359-362 | each walked node is removed exactly when it timed out |
| Nodes.NodePool.Pop | dismusic/music.py:361 | `_nodes.pop(id, None)` removes that identifier's node, and only that node |
| Nodes.NodePool.Ranked | dismusic/music.py:144-145 | `get_nodes()` is a permutation of the pool, sorted by increasing load, with the pool order kept among equal loads |
| Nodes.NodePool.Dispatch | dismusic/music.py:352-364 | the loop over `get_nodes()` searches, ends and evicts as `Tried`, `EndOf` and the timed-out removal state, on the ranking taken before the loop |
| Nodes.NodePool.Walk | dismusic/music.py:353-364 | the `while` loop over a snapshot meets `Tried`, `EndOf` and the eviction of the timed-out walked nodes, and keeps identifiers distinct |
| Cookies.Locate | dismusic/music.py:156-161 | a raw location is fetched as it is; otherwise the gist resolution gives the URL (nothing when it is falsy), after one API request when it succeeds |
| Cookies.IsRawLocation | dismusic/music.py:157 | a source containing `"raw"` is fetched as it is; a source without `"raw"` is fetched as it is only when it names the raw gist host, and otherwise goes through the gist resolution |
| Cookies.Fetch | dismusic/music.py:149-170 | a cached text, even an empty one, is returned with no request and no change; with no source, nothing; a failed gist resolution returns nothing after its API requests; otherwise exactly one GET of the located URL follows, and a text is returned exactly when it answers 200, and is then stored with the time; any failure leaves the cache unchanged; at most two requests |
| Cookies.Refresh | dismusic/music.py:172-191 | no source gives the fixed message; success overwrites the cache with a 200 body and the time; any failure leaves the cache unchanged and gives the resolution message, the exception text or `"HTTP <status>"`; the requests are those of an uncached fetch |
| Cookies.RefreshCommand | dismusic/music.py:428-442 | no source: nothing happens; a truthy cache without `force`: no request, and the fetch time (or 0) is reported; otherwise the command is a refresh, replying success exactly when it succeeded and otherwise the refresh's failure detail |
| Cookies.FetchAfterRefresh | dismusic/music.py:149-191 | after a successful refresh, a fetch returns the new text with no request |
| Cookies.EmptyTextGatesDiffer | dismusic/music.py:150 | an empty cached text counts as cached for the fetch (`is not None`), but the command (truthiness, line 434) refreshes it |
| Cookies.ConfiguredSourceNotRaw | dismusic/music.py:36 | the configured page is not a raw location |
| Cookies.ConfiguredSourceUsesApi | dismusic/music.py:36-38 | the configured page is resolved through one API request for its gist id |
| Cookies.NotContainsWithout | dismusic/music.py:157 | a string without some character of `sub` does not contain `sub` |
| Resolve.SearchQuery | dismusic/music.py:217-220 | a URL is sent as it is; anything else becomes `"ytsearch:"` followed by the query |
| Resolve.FollowUpUrl | dismusic/music.py:234-236 | the first entry's truthy `webpage_url`, or else its truthy `url` |
| Resolve.MainAnswer | dismusic/music.py:221-228 | the `info` used is the answer to the last of the first calls: the retry's after a raise, else the first call's; it is a raise only if the first call raised |
| Resolve.FirstCalls | dismusic/music.py:221-228 | the first call uses the cookies; a second call, without cookies, is made exactly when the first raises |
| Resolve.FromAnswer | dismusic/music.py:229-244 | the follow-up adds at most one call after the first ones |
| Resolve.ResolveSearch | dismusic/music.py:221-244 | one to three calls, the first one with the query and the cookies |
| Resolve.ResolveQuery | dismusic/music.py:214-244 | one to three calls; the first sends the stripped query, prefixed unless it is a URL, with the cookies |
| Resolve.RetryStep | dismusic/music.py:222-228 | the retry without cookies happens exactly when the first call raises; a second raise gives nothing, with no further call |
| Resolve.MainAnswerStep | dismusic/music.py:229-244 | a falsy answer gives nothing; an answer with a stream gives it with no follow-up |
| Resolve.FollowUpStep | dismusic/music.py:232-243 | a follow-up call is made exactly when the main answer has no stream and its first entry has a `webpage_url` or `url`; it extracts that URL with the same cookies, and its answer gives the choice |
| Resolve.FromAnswerChosen | dismusic/music.py:229-244 | a choice comes from the main answer, or from the follow-up's answer when one was made |
| Resolve.ChosenFromLastCall | dismusic/music.py:229-244 | whatever is chosen was chosen from the answer to the last call |
| Resolve.UrlQueryUnchanged | dismusic/music.py:216-220 | a URL query is only stripped |
| Resolve.EmptyCookiesAreNoCookies | dismusic/music.py:199 | an empty cookie text behaves exactly like no cookies |
| Resolve.RetryWithoutCookiesRepeats | dismusic/music.py:223-226 | without cookies, the retry repeats the first call |
| Music.ChosenEntryNotEmpty | dismusic/music.py:251-253 | a chosen entry is never the empty dict, so its metadata is always attached |
| Music.NormalizeQuery | dismusic/music.py:321 | the result is the bracket-stripped query with its whitespace ends stripped, no longer than the input, and it is empty exactly when the bracket-stripped query is all whitespace |
| Music.TitleOr | dismusic/music.py:331 | a truthy title is reported; the reported text is empty only when the title is falsy and the query is empty |
| Music.DirectReplyNamesTitle | dismusic/music.py:321-332 | the "Playing" reply of the play command never names an empty title, because the query it falls back on passed the empty-query guard |
| Music.DirectTitleNotEmpty | dismusic/music.py:321-332 | at the step after the query is resolved, a "Playing" reply for a non-empty query never names an empty title |
| Music.FallbackReply | dismusic/music.py:365-376 | an escaped exception, no result or a falsy result, a playlist (all of its tracks) and a track list (its first track) map to their replies, in both directions |
| Music.NoProviderAborts | dismusic/music.py:347-358 | with no provider class the first node's search raises and the loop stops there |
| Music.Player.Put | dismusic/music.py:371 | `queue.put` appends at the tail |
| Music.Cog.constructor | dismusic/music.py:134-140 | the cog starts with the configured gist page and file name and an empty cache |
| Music.Cog.FetchCookiesText | dismusic/music.py:149-170 | the fields and results change exactly as `Fetch` says |
| Music.Cog.RefreshCookies | dismusic/music.py:172-191 | the fields and results change exactly as `Refresh` says |
| Music.Cog.RefreshCookiesCommand | dismusic/music.py:428-442 | the fields and the reply are exactly as `RefreshCommand` says |
| Music.Cog.ResolveQueryToUrl | dismusic/music.py:214-244 | the cookies are fetched as `Fetch` says; then the calls and the choice are those of `ResolveQuery` with the fetched text |
| Music.Cog.ResolveWith | dismusic/music.py:216-244 | the calls and the choice are those of `ResolveQuery` |
| Music.Cog.ExtractWithRetry | dismusic/music.py:221-228 | the calls are those of `FirstCalls`, and the answer is the last one's |
| Music.Cog.ChooseWithFollowUp | dismusic/music.py:229-244 | the choice and the extra call are those of `FromAnswer` |
| Music.Cog.PlayDirectUrl | dismusic/music.py:246-268 | success exactly when the player plays, or else the pool's first node does; on success, non-empty metadata becomes the source; otherwise the source is unchanged |
| Music.Cog.Fallback | dismusic/music.py:337-376 | the provider class of `ResolveProvider` is searched over the ranking; the reply is `FallbackReply` of the loop's end; exactly the timed-out searched nodes leave the pool; the queue grows by exactly the reply's tracks |
| Music.Cog.Enqueue | dismusic/music.py:365-376 | a playlist appends all of its tracks in order; a track list appends its first track; nothing found appends nothing; the earlier queue is untouched |
| Music.Cog.PlayTrackInteraction | dismusic/music.py:310-378 | no player: nothing changes; otherwise `Responded`: another channel or an empty normalised query changes nothing; else the cookies are fetched, the query resolved and played directly or through the fallback as `Played` says, and `do_next` is called exactly when tracks were queued on an idle player |
| Music.Cog.PlayForMember | dismusic/music.py:317-378 | the channel guard and the empty-query guard, then the play of the normalised query, as `Responded` says |
| Music.Cog.PlayQuery | dismusic/music.py:325-376 | the cookie fetch, the resolution and the play of the resolution, as `Played` says |
| Music.Cog.PlayChosen | dismusic/music.py:326-376 | the direct play of a resolution and the fallback when there is none or it fails, as `PlayedChosen` says |

## Left out

- I/O: the HTTP session, the JSON decoding of the gist API answer, the yt-dlp library, its
  thread pool, the temporary cookie file and its removal in `finally`, Discord messages,
  `defer` and the `followup`/`edit` texts. Each is a parameter or an outcome label instead.
- `_is_url` and `urlparse`: given as the predicate `isUrl`.
- The `(?:/|$)` test of the gist id search follows Python's `$`, which also matches before a
  final newline. `strip()` without arguments removes the ASCII whitespace, `\x1c`-`\x1f`,
  `\x85` and `\xa0`. Other Unicode space characters are not in the model's set.
- Timestamps and bitrates are naturals, not floats.
- Gist.ResolveRawUrl: the `files` value and each file entry are maps of strings. A `files`
  value or an entry that is not a dict, and a `raw_url` that is not a string, are not modelled.
- Audio.ChooseAudio: a falsy info (`None` or `{}`) is `None`. A record's `entries`, `formats`,
  `is_live` and `title`, when absent or `None`, become an empty list, `false` and `None`.
- Resolve.ResolveQuery: the answer to an extractor call is a function of the call, so two
  identical calls get the same answer.
- Nodes.NodePool.Walk: the `dismusic_node_fail` event sent on each timeout is not modelled.
- Music.Cog.PlayTrackInteraction: `do_next` is reported as a flag, and what it does lives in
  `DisPlayer` (`dismusic/player.py` is not part of this model). Pause, skip, seek and loop
  are not modelled either. The `playing` flag is read, never written.
- Music.Cog.PlayDirectUrl: the metadata assignment is best-effort in the source, and the
  model assumes it never raises.
- Concurrency: two commands running at the same time on the same cog or pool are not modelled.
- Node creation, `connect`, `_ensure_voice_for_user`, `_connect`, the other commands and
  `setup` are not part of the model.
- The command reply texts are replaced by the `Reply` and `PlayReply` labels.

=== FILE: Audio.dfy ===
/** Choice of the stream URL from a yt-dlp info record (`_choose_audio_url_from_info`). */
module Audio {
  import opened Wrappers
  import opened Text

  /** One element of yt-dlp's `formats` list. An absent key is `None`; bitrates are whole
      numbers in this model. */
  datatype Format = Format(url: Option<string>, acodec: Option<string>, abr: Option<nat>, tbr: Option<nat>)

  /** A yt-dlp info record: a single video, or a container (search result, playlist) whose
      `entries` are records again. An absent or `None` list is empty; an absent or `None`
      `is_live` is false. */
  datatype Info = Info(
    entries: seq<Info>,
    url: Option<string>,
    isLive: bool,
    formats: seq<Format>,
    webpageUrl: Option<string>,
    title: Option<string>)

  /** The stream URL picked and the entry it belongs to (`(url, entry)` in the source). The URL
      is optional because a chosen format's own `url` key may be absent. */
  datatype Choice = Choice(url: Option<string>, entry: Info)

  /** `x or 0` */
  function Rate(x: Option<nat>): nat
  {
    x.GetOr(0)
  }

  /** The sort key `(abr or 0, tbr or 0)` of `f` is smaller than that of `g` in Python's
      lexicographic tuple order. */
  predicate KeyLess(f: Format, g: Format)
  {
    Rate(f.abr) < Rate(g.abr) || (Rate(f.abr) == Rate(g.abr) && Rate(f.tbr) < Rate(g.tbr))
  }

  /** The filter `f.get("acodec") != "none"`: a missing codec passes. */
  predicate IsAudio(f: Format)
    ensures f.acodec.None? ==> IsAudio(f)
    ensures IsAudio(f) <==> f.acodec.None? || f.acodec.value != "none"
  {
    f.acodec != Some("none")
  }

  /** The record whose stream is chosen: the first entry of a non-empty container, else the
      record itself. */
  function EntryOf(info: Info): (e: Info)
    ensures e == info || e in info.entries
    ensures info.entries != [] ==> e == info.entries[0]
  {
    if info.entries != [] then info.entries[0] else info
  }

  /** A truthy `url` on a record that is not live wins outright. */
  predicate HasDirectUrl(e: Info)
    ensures HasDirectUrl(e) ==> e.url.Some? && e.url.value != "" && !e.isLive
    ensures e.url.Some? && e.url.value != "" && !e.isLive ==> HasDirectUrl(e)
  {
    Truthy(e.url) && !e.isLive
  }

  /** `[f for f in formats if f.get("acodec") != "none"]` */
  function AudioFormats(fs: seq<Format>): (r: seq<Format>)
    ensures |r| <= |fs|
    ensures forall f :: f in r <==> f in fs && IsAudio(f)
  {
    if fs == [] then []
    else (if IsAudio(fs[0]) then [fs[0]] else []) + AudioFormats(fs[1..])
  }

  /** No element has a smaller key than one after it. */
  predicate SortedDesc(s: seq<Format>)
  {
    forall i, j :: 0 <= i < j < |s| ==> !KeyLess(s[i], s[j])
  }

  /** Puts `x`, which came before every element of `s`, in front of the first element whose
      key is not greater, so that equal keys keep their order. */
  function InsertDesc(x: Format, s: seq<Format>): (r: seq<Format>)
    ensures |r| == |s| + 1 && (r[0] == x || (s != [] && r[0] == s[0]))
  {
    if s == [] || !KeyLess(x, s[0]) then [x] + s
    else [s[0]] + InsertDesc(x, s[1..])
  }

  /** Inserting into a sorted sequence keeps it sorted. */
  lemma {:induction false} InsertDescSorted(x: Format, s: seq<Format>)
    requires SortedDesc(s)
    ensures SortedDesc(InsertDesc(x, s))
    decreases |s|
  {
    if s == [] || !KeyLess(x, s[0]) {
      ConsSortedDesc(x, s);
    } else {
      var rest := InsertDesc(x, s[1..]);
      InsertDescSorted(x, s[1..]);
      assert !KeyLess(s[0], rest[0]) by {
        if rest[0] != x {
          assert rest[0] == s[1];
        }
      }
      ConsSortedDesc(s[0], rest);
    }
  }

  /** Inserting adds exactly `x`. */
  lemma {:induction false} InsertDescPermutes(x: Format, s: seq<Format>)
    ensures multiset(InsertDesc(x, s)) == multiset(s) + multiset{x}
    decreases |s|
  {
    if !(s == [] || !KeyLess(x, s[0])) {
      InsertDescPermutes(x, s[1..]);
      assert s == [s[0]] + s[1..];
    }
  }

  /** An element whose key is not below the head of a sorted sequence extends it. */
  lemma ConsSortedDesc(h: Format, rest: seq<Format>)
    requires SortedDesc(rest) && (rest == [] || !KeyLess(h, rest[0]))
    ensures SortedDesc([h] + rest)
  {
    var r := [h] + rest;
    forall i, j | 0 <= i < j < |r| ensures !KeyLess(r[i], r[j]) {
      if i == 0 && j > 1 {
        assert !KeyLess(rest[0], rest[j - 1]);
      }
    }
  }

  /** `sorted(fs, key=(abr or 0, tbr or 0), reverse=True)`: a stable sort by decreasing key. */
  function SortDesc(fs: seq<Format>): (r: seq<Format>)
    ensures |r| == |fs|
    ensures multiset(r) == multiset(fs)
    ensures SortedDesc(r)
  {
    if fs == [] then []
    else
      var rest := SortDesc(fs[1..]);
      assert fs == [fs[0]] + fs[1..];
      InsertDescSorted(fs[0], rest);
      InsertDescPermutes(fs[0], rest);
      InsertDesc(fs[0], rest)
  }

  /** `_choose_audio_url_from_info(info)`; `None` stands for a falsy record. */
  function ChooseAudio(info: Option<Info>): (r: Option<Choice>)
    ensures info.None? ==> r.None?
    ensures r.Some? ==> info.Some? && r.value.entry == EntryOf(info.value)
    ensures info.Some? && HasDirectUrl(EntryOf(info.value)) ==> r.Some? && r.value.url == EntryOf(info.value).url
    ensures info.Some? && !HasDirectUrl(EntryOf(info.value)) ==>
      (r.Some? <==> exists f :: f in EntryOf(info.value).formats && IsAudio(f))
    ensures r.Some? && !HasDirectUrl(r.value.entry) ==>
      exists f :: f in r.value.entry.formats && IsAudio(f) && f.url == r.value.url
    ensures r.Some? ==> Truthy(r.value.entry.url) || r.value.entry.formats != []
  {
    if info.None? then None
    else
      var entry := EntryOf(info.value);
      if HasDirectUrl(entry) then Some(Choice(entry.url, entry))
      else
        var audio := AudioFormats(entry.formats);
        if audio == [] then None
        else
          var best := SortDesc(audio)[0];
          assert best in multiset(audio);
          assert best in audio;
          Some(Choice(best.url, entry))
  }

  /** `fs[k]` is an audio format with the largest key among the audio formats, and every audio
      format before it has a strictly smaller key: the first best one in list order. */
  predicate IsFirstBestAudio(fs: seq<Format>, k: nat)
  {
    && k < |fs| && IsAudio(fs[k])
    && (forall f :: f in fs && IsAudio(f) ==> !KeyLess(fs[k], f))
    && (forall j :: 0 <= j < k && IsAudio(fs[j]) ==> KeyLess(fs[j], fs[k]))
  }

  /** The head of the descending sort: the first element unless the sort of the rest starts
      with a strictly larger key. */
  lemma SortDescHead(fs: seq<Format>)
    requires |fs| > 1
    ensures SortDesc(fs)[0] == if KeyLess(fs[0], SortDesc(fs[1..])[0]) then SortDesc(fs[1..])[0] else fs[0]
  {
  }

  /** The stable descending sort of the audio formats starts with the first best audio format
      of the unfiltered list. */
  lemma {:induction false} SortedAudioStartsWithFirstBest(fs: seq<Format>, k: nat)
    requires IsFirstBestAudio(fs, k)
    ensures AudioFormats(fs) != [] && SortDesc(AudioFormats(fs))[0] == fs[k]
    decreases |fs|
  {
    var x, rest := fs[0], fs[1..];
    assert fs == [x] + rest;
    if k > 0 {
      FirstBestInRest(fs, k);
      SortedAudioStartsWithFirstBest(rest, k - 1);
      assert fs[k] == rest[k - 1];
    }
    if !IsAudio(x) {
      assert AudioFormats(fs) == AudioFormats(rest);
    } else {
      AudioHeadStep(fs, k);
    }
  }

  /** Dropping a first element that is not the first best one keeps the rest's first best. */
  lemma FirstBestInRest(fs: seq<Format>, k: nat)
    requires IsFirstBestAudio(fs, k) && k > 0
    ensures IsFirstBestAudio(fs[1..], k - 1)
  {
    var rest := fs[1..];
    forall j | 0 <= j < k - 1 && IsAudio(rest[j]) ensures KeyLess(rest[j], rest[k - 1]) {
      assert rest[j] == fs[j + 1];
    }
  }

  /** With an audio first element, the sort starts with the first best one, given that the
      sort of the rest does when the first best one lies in the rest. */
  lemma AudioHeadStep(fs: seq<Format>, k: nat)
    requires IsFirstBestAudio(fs, k) && IsAudio(fs[0])
    requires k > 0 ==> AudioFormats(fs[1..]) != [] && SortDesc(AudioFormats(fs[1..]))[0] == fs[k]
    ensures AudioFormats(fs) != [] && SortDesc(AudioFormats(fs))[0] == fs[k]
  {
    var x, rest := fs[0], fs[1..];
    assert fs == [x] + rest;
    var a, ar := AudioFormats(fs), AudioFormats(rest);
    assert a == [x] + ar;
    assert a[1..] == ar;
    if ar == [] {
      assert k == 0;
    } else {
      SortDescHead(a);
      var h := SortDesc(ar)[0];
      assert h in multiset(ar);
      assert h in ar;
      if k == 0 {
        assert h in fs;
        assert !KeyLess(x, h);
      }
    }
  }

  /** Without a usable direct URL, the chosen URL is that of the first audio format with the
      largest `(abr or 0, tbr or 0)`. */
  lemma ChoosesFirstBestAudio(info: Info, k: nat)
    requires !HasDirectUrl(EntryOf(info))
    requires IsFirstBestAudio(EntryOf(info).formats, k)
    ensures ChooseAudio(Some(info)) == Some(Choice(EntryOf(info).formats[k].url, EntryOf(info)))
  {
    SortedAudioStartsWithFirstBest(EntryOf(info).formats, k);
  }

  /** Only `entries[0]` of a container is consulted. */
  lemma OnlyFirstEntryConsulted(info: Info, other: Info)
    requires info.entries != [] && other.entries != [] && info.entries[0] == other.entries[0]
    ensures ChooseAudio(Some(info)) == ChooseAudio(Some(other))
  {
  }
}

=== FILE: Cookies.dfy ===
/** The one-slot cookie cache of the cog: `_fetch_cookies_text`, `_refresh_cookies` and the
    gate of the `refreshcookies` command, as functions from the cache before to the cache
    after. The HTTP calls are given as `Web`. */
module Cookies {
  import opened Wrappers
  import opened Text
  import opened Gist

  /** `_cached_cookies_text` and `_cached_cookies_fetched_at`. */
  datatype CacheState = CacheState(text: Option<string>, fetchedAt: Option<nat>)

  /** The answer to a GET: an exception with its message, or a status with its body text. */
  datatype HttpAnswer = HttpRaised(message: string) | HttpResponse(status: nat, body: string)

  /** The outside world of a fetch: the gist API and plain GET requests, by URL. */
  datatype Web = Web(api: string -> ApiAnswer, get: string -> HttpAnswer)

  /** A request sent, in order. */
  datatype Request = ApiRequest(url: string) | GetRequest(url: string)

  const NoSourceMessage: string := "No cookie source configured inside the cog"
  const ResolveFailedMessage: string := "Failed to resolve gist raw URL via GitHub API"

  /** A source is fetched as it is when it names the raw host or contains "raw" anywhere. */
  predicate IsRawLocation(source: string)
    ensures Contains(source, "raw") ==> IsRawLocation(source)
    ensures !Contains(source, "raw") ==> (IsRawLocation(source) <==> Contains(source, "gist.githubusercontent.com"))
  {
    Contains(source, "gist.githubusercontent.com") || Contains(source, "raw")
  }

  /** Where the cookies are fetched from (nothing when the gist indirection fails) and the API
      requests made to find out. */
  datatype Located = Located(url: Option<string>, requests: seq<Request>)

  function Locate(source: string, filename: string, web: Web): (l: Located)
    ensures IsRawLocation(source) ==> l == Located(Some(source), [])
    ensures !IsRawLocation(source) ==> l.url == (var raw := ResolveRawUrl(source, filename, web.api);
      if Truthy(raw) then raw else None)
    ensures !IsRawLocation(source) && l.url.Some? ==> |l.requests| == 1 && l.requests[0].ApiRequest?
    ensures source != "" && l.url.Some? ==> l.url.value != ""
  {
    if IsRawLocation(source) then Located(Some(source), [])
    else
      var raw := ResolveRawUrl(source, filename, web.api);
      var requests := match GistIdFromUrl(source)
        case Some(id) => [ApiRequest(GistApiUrl(id))]
        case None => [];
      Located(if Truthy(raw) then raw else None, requests)
  }

  /** The result of a fetch: the cache afterwards, the text returned, the requests sent. */
  datatype FetchResult = FetchResult(cache: CacheState, text: Option<string>, requests: seq<Request>)

  /** The GET of a fetch answered 200 with `body`. */
  predicate AnsweredOk(requests: seq<Request>, web: Web, body: string)
  {
    requests != [] && requests[|requests| - 1].GetRequest?
      && web.get(requests[|requests| - 1].url) == HttpResponse(200, body)
  }

  /** `_fetch_cookies_text`: a cached text, even an empty one, is returned without a request;
      otherwise one fetch, whose 200 answer is stored with the time and returned; every failure
      returns nothing and leaves the cache as it was. */
  function Fetch(cache: CacheState, source: Option<string>, filename: string, web: Web, now: nat): (r: FetchResult)
    ensures cache.text.Some? ==> r == FetchResult(cache, cache.text, [])
    ensures cache.text.None? && !Truthy(source) ==> r == FetchResult(cache, None, [])
    ensures cache.text.None? && r.text.Some? ==>
      r.cache == CacheState(r.text, Some(now)) && AnsweredOk(r.requests, web, r.text.value)
    ensures r.text.None? ==> r.cache == cache
    ensures |r.requests| <= 2
    ensures cache.text.None? && Truthy(source) ==>
      var loc := Locate(source.value, filename, web);
      && (loc.url.None? ==> r == FetchResult(cache, None, loc.requests))
      && (loc.url.Some? ==>
            && r.requests == loc.requests + [GetRequest(loc.url.value)]
            && (r.text.Some? <==> web.get(loc.url.value).HttpResponse? && web.get(loc.url.value).status == 200))
  {
    if cache.text.Some? then FetchResult(cache, cache.text, [])
    else if !Truthy(source) then FetchResult(cache, None, [])
    else
      var loc := Locate(source.value, filename, web);
      match loc.url
      case None => FetchResult(cache, None, loc.requests)
      case Some(url) =>
        var requests := loc.requests + [GetRequest(url)];
        var answer := web.get(url);
        if answer.HttpResponse? && answer.status == 200 then
          FetchResult(CacheState(Some(answer.body), Some(now)), Some(answer.body), requests)
        else FetchResult(cache, None, requests)
  }

  /** The result of a refresh: the cache afterwards, success, the failure detail, the requests. */
  datatype RefreshResult = RefreshResult(cache: CacheState, ok: bool, detail: Option<string>, requests: seq<Request>)

  /** `_refresh_cookies`: the fetch of `Fetch` without the cache short-circuit; a 200 answer
      overwrites the cache, any failure leaves it and says why. */
  function Refresh(cache: CacheState, source: Option<string>, filename: string, web: Web, now: nat): (r: RefreshResult)
    ensures !Truthy(source) ==> r == RefreshResult(cache, false, Some(NoSourceMessage), [])
    ensures r.ok ==>
      r.detail.None? && r.cache.fetchedAt == Some(now) && r.cache.text.Some?
      && AnsweredOk(r.requests, web, r.cache.text.value)
    ensures !r.ok ==> r.cache == cache && r.detail.Some?
    ensures Truthy(source) ==>
      var uncached := Fetch(CacheState(None, None), source, filename, web, now);
      r.requests == uncached.requests && (r.ok <==> uncached.text.Some?)
      && (r.ok ==> r.cache == uncached.cache)
    ensures Truthy(source) && Locate(source.value, filename, web).url.None? ==>
      r == RefreshResult(cache, false, Some(ResolveFailedMessage), Locate(source.value, filename, web).requests)
    ensures r.requests != [] && r.requests[|r.requests| - 1].GetRequest? ==>
      match web.get(r.requests[|r.requests| - 1].url)
      case HttpRaised(message) => !r.ok && r.detail == Some(message)
      case HttpResponse(status, _) =>
        (r.ok <==> status == 200) && (status != 200 ==> r.detail == Some("HTTP " + DecimalString(status)))
  {
    if !Truthy(source) then RefreshResult(cache, false, Some(NoSourceMessage), [])
    else
      var loc := Locate(source.value, filename, web);
      match loc.url
      case None => RefreshResult(cache, false, Some(ResolveFailedMessage), loc.requests)
      case Some(url) =>
        var requests := loc.requests + [GetRequest(url)];
        match web.get(url)
        case HttpRaised(message) => RefreshResult(cache, false, Some(message), requests)
        case HttpResponse(status, body) =>
          if status == 200 then RefreshResult(CacheState(Some(body), Some(now)), true, None, requests)
          else RefreshResult(cache, false, Some("HTTP " + DecimalString(status)), requests)
  }

  /** What the `refreshcookies` command reports. */
  datatype Reply = NoSource | AlreadyCached(fetchedAt: nat) | Refreshed | RefreshFailed(detail: Option<string>)

  datatype CommandResult = CommandResult(cache: CacheState, reply: Reply, requests: seq<Request>)

  /** The `refreshcookies` command: a truthy cache is kept unless `force`; otherwise a refresh. */
  function RefreshCommand(cache: CacheState, source: Option<string>, filename: string, force: bool, web: Web, now: nat): (r: CommandResult)
    ensures !Truthy(source) ==> r == CommandResult(cache, NoSource, [])
    ensures Truthy(source) && Truthy(cache.text) && !force ==>
      r == CommandResult(cache, AlreadyCached(cache.fetchedAt.GetOr(0)), [])
    ensures Truthy(source) && (force || !Truthy(cache.text)) ==>
      var refresh := Refresh(cache, source, filename, web, now);
      && r.cache == refresh.cache && r.requests == refresh.requests
      && (r.reply == Refreshed <==> refresh.ok)
      && (!refresh.ok ==> r.reply == RefreshFailed(refresh.detail))
  {
    if !Truthy(source) then CommandResult(cache, NoSource, [])
    else if Truthy(cache.text) && !force then CommandResult(cache, AlreadyCached(cache.fetchedAt.GetOr(0)), [])
    else
      var refresh := Refresh(cache, source, filename, web, now);
      CommandResult(refresh.cache, if refresh.ok then Refreshed else RefreshFailed(refresh.detail), refresh.requests)
  }

  /** After a successful refresh, a fetch returns the refreshed text without a request. */
  lemma FetchAfterRefresh(cache: CacheState, source: Option<string>, filename: string, web: Web, now: nat, later: nat)
    requires Refresh(cache, source, filename, web, now).ok
    ensures var after := Refresh(cache, source, filename, web, now).cache;
      Fetch(after, source, filename, web, later) == FetchResult(after, after.text, [])
  {
  }

  /** An empty cached text counts as cached for the fetch but not for the command's gate: the
      fetch returns it without a request while the command, even without `force`, refreshes. */
  lemma EmptyTextGatesDiffer(fetchedAt: Option<nat>, source: Option<string>, filename: string, web: Web, now: nat)
    requires Truthy(source)
    ensures var cache := CacheState(Some(""), fetchedAt);
      && Fetch(cache, source, filename, web, now) == FetchResult(cache, Some(""), [])
      && RefreshCommand(cache, source, filename, false, web, now).requests
         == Refresh(cache, source, filename, web, now).requests
  {
  }

  /** The configured gist page is not a raw location: neither 'e' nor 'w' occurs in it. */
  lemma ConfiguredSourceNotRaw()
    ensures !IsRawLocation(GistPageOrId)
  {
    forall c | c in "ew"
      ensures c !in GistPageOrId
    {
      assert c !in "https://" && c !in "gist.github.com/" && c !in "Fttristan/";
      assert c !in "002c3a85ca65cb2a" && c !in "80c0927a1cb0da61";
    }
    NotContainsWithout(GistPageOrId, "gist.githubusercontent.com", 'e');
    NotContainsWithout(GistPageOrId, "raw", 'w');
  }

  /** The configured gist page is resolved through one API request for its id. */
  lemma ConfiguredSourceUsesApi(filename: string, web: Web)
    ensures Locate(GistPageOrId, filename, web).requests == [ApiRequest(GistApiUrl("002c3a85ca65cb2a" + "80c0927a1cb0da61"))]
  {
    ConfiguredGistId();
    ConfiguredSourceNotRaw();
  }

  /** A string lacking a character of `sub` does not contain `sub`. */
  lemma {:induction false} NotContainsWithout(s: string, sub: string, c: char)
    requires c in sub && c !in s
    ensures !Contains(s, sub)
    decreases |s|
  {
    if |sub| <= |s| {
      assert s[..|sub|] != sub by {
        var i :| 0 <= i < |sub| && sub[i] == c;
        assert s[i] != c;
      }
      NotContainsWithout(s[1..], sub, c);
    }
  }
}

=== FILE: Gist.dfy ===
/** Locating the cookie file of a GitHub gist: the gist id in a page URL
    (`get_gist_id_from_url`) and the file picked from the gist API's answer
    (`get_gist_raw_url`). */
module Gist {
  import opened Wrappers
  import opened Text

  /** The configured cookie source: the page of gist `002c3a85ca65cb2a80c0927a1cb0da61` of the
      user `Fttristan` on gist.github.com, written as scheme, host, user and the id's two halves. */
  const GistPageOrId: string :=
    "https://" + "gist.github.com/" + "Fttristan/" + "002c3a85ca65cb2a" + "80c0927a1cb0da61"
  /** The file of that gist holding the cookies. */
  const GistFilename: string := "gistfile1.txt"
  const GistApiBase: string := "https://api.github.com/gists"

  /** `[0-9a-fA-F]` */
  predicate IsHexDigit(c: char)
  {
    '0' <= c <= '9' || 'a' <= c <= 'f' || 'A' <= c <= 'F'
  }

  /** `re.fullmatch(r"[0-9a-fA-F]{8,}", s)` */
  predicate IsHexId(s: string)
  {
    |s| >= 8 && forall i :: 0 <= i < |s| ==> IsHexDigit(s[i])
  }

  /** The length of the longest run of hex digits that starts at `i`. */
  function HexRunLength(s: string, i: nat): (n: nat)
    requires i <= |s|
    ensures i + n <= |s|
    ensures forall k :: i <= k < i + n ==> IsHexDigit(s[k])
    ensures i + n == |s| || !IsHexDigit(s[i + n])
    decreases |s| - i
  {
    if i < |s| && IsHexDigit(s[i]) then 1 + HexRunLength(s, i + 1) else 0
  }

  /** `(?:/|$)` matches at `j`: a '/', the end, or (Python's `$`) just before a final newline. */
  predicate GroupEndsAt(s: string, j: nat)
    requires j <= |s|
  {
    j == |s| || s[j] == '/' || (j == |s| - 1 && s[j] == '\n')
  }

  /** `/([0-9a-fA-F]{8,})(?:/|$)` matches at `p`. The greedy run backtracks in vain: a shorter
      run is followed by a hex digit, so only the longest run can be followed by the group end. */
  predicate SlashHexAt(s: string, p: nat)
  {
    && p < |s| && s[p] == '/'
    && HexRunLength(s, p + 1) >= 8
    && GroupEndsAt(s, p + 1 + HexRunLength(s, p + 1))
  }

  /** `re.search`: the leftmost position at or after `p` where the pattern matches. */
  function SearchSlashHex(s: string, p: nat): (r: Option<nat>)
    requires p <= |s|
    ensures r.Some? ==> p <= r.value && SlashHexAt(s, r.value)
    ensures r.Some? ==> forall q :: p <= q < r.value ==> !SlashHexAt(s, q)
    ensures r.None? ==> forall q :: p <= q ==> !SlashHexAt(s, q)
    decreases |s| - p
  {
    if p == |s| then None
    else if SlashHexAt(s, p) then Some(p)
    else SearchSlashHex(s, p + 1)
  }

  /** The captured group of a match at `p`. */
  function GroupAt(s: string, p: nat): (g: string)
    requires SlashHexAt(s, p)
    ensures IsHexId(g)
  {
    s[p + 1..p + 1 + HexRunLength(s, p + 1)]
  }

  /** `get_gist_id_from_url`: the whole string when it is a hex id, else the group of the
      leftmost `/hex{8,}` followed by '/' or the end, else the last '/'-separated segment
      after trailing slashes are stripped, when that is a hex id. */
  function GistIdFromUrl(s: string): (r: Option<string>)
    ensures s == "" ==> r.None?
    ensures IsHexId(s) ==> r == Some(s)
    ensures r.Some? ==> IsHexId(r.value) && Contains(s, r.value)
    ensures forall p: nat :: !IsHexId(s) && SlashHexAt(s, p) && (forall q: nat :: q < p ==> !SlashHexAt(s, q)) ==>
      r == Some(s[p + 1..p + 1 + HexRunLength(s, p + 1)])
    ensures r.None? <==>
      s == "" || (!IsHexId(s) && (forall p: nat :: !SlashHexAt(s, p)) && !IsHexId(AfterLastSlash(RStrip(s, {'/'}))))
  {
    if s == "" then None
    else if IsHexId(s) then
      ContainsSlice(s, 0, |s|);
      assert s[0..|s|] == s;
      Some(s)
    else match SearchSlashHex(s, 0)
      case Some(p) =>
        GroupInside(s, p);
        Some(GroupAt(s, p))
      case None =>
        var last := AfterLastSlash(RStrip(s, {'/'}));
        LastSegmentInside(s);
        if IsHexId(last) then Some(last) else None
  }

  /** The group of a match is a piece of the string. */
  lemma GroupInside(s: string, p: nat)
    requires SlashHexAt(s, p)
    ensures Contains(s, GroupAt(s, p))
  {
    ContainsSlice(s, p + 1, p + 1 + HexRunLength(s, p + 1));
  }

  /** The last segment after trailing slashes are stripped is a piece of the string. */
  lemma LastSegmentInside(s: string)
    ensures Contains(s, AfterLastSlash(RStrip(s, {'/'})))
  {
    var trimmed := RStrip(s, {'/'});
    var last := AfterLastSlash(trimmed);
    ContainsSlice(s, |trimmed| - |last|, |trimmed|);
    assert s[|trimmed| - |last|..|trimmed|] == last;
  }

  /** The gist id in the configured source. */
  lemma ConfiguredGistId()
    ensures GistIdFromUrl(GistPageOrId) == Some("002c3a85ca65cb2a" + "80c0927a1cb0da61")
  {
    var s := GistPageOrId;
    ConfiguredPageLayout();
    assert HexRunLength(s, 34) == 32;
    assert SlashHexAt(s, 33);
    forall q | 0 <= q < 33 ensures !SlashHexAt(s, q) {
      ConfiguredPrefixRunsShort(q);
    }
    assert SearchSlashHex(s, 0) == Some(33);
    assert !IsHexId(s) by {
      assert !IsHexDigit(s[0]);
    }
    assert GroupAt(s, 33) == s[34..];
  }

  /** The configured source is 33 characters of page address, a '/' and 32 hex digits. */
  lemma ConfiguredPageLayout()
    ensures |GistPageOrId| == 66 && GistPageOrId[0] == 'h' && GistPageOrId[33] == '/'
    ensures forall k :: 34 <= k < 66 ==> IsHexDigit(GistPageOrId[k])
    ensures GistPageOrId[34..] == "002c3a85ca65cb2a" + "80c0927a1cb0da61"
  {
    var id := "002c3a85ca65cb2a" + "80c0927a1cb0da61";
    assert GistPageOrId == ("https://" + "gist.github.com/" + "Fttristan/") + id;
    assert forall k :: 0 <= k < |id| ==> IsHexDigit(id[k]);
  }

  /** No run of eight hex digits starts inside the page address of the configured source. */
  lemma ConfiguredPrefixRunsShort(q: nat)
    requires q < 33
    ensures HexRunLength(GistPageOrId, q + 1) < 8
  {
    var s := GistPageOrId;
    var page := "https://" + "gist.github.com/" + "Fttristan/";
    assert s == page + ("002c3a85ca65cb2a" + "80c0927a1cb0da61");
    assert s[..34] == page;
    var i := q + 1;
    if IsHexDigit(s[i]) {
      assert i in {18, 20, 24, 31};
      assert !IsHexDigit(s[i + 1]);
    }
  }

  /** The string fields of one entry of the gist API's `files` object; an empty entry is falsy. */
  type FileEntry = map<string, string>

  /** `file_entry.get("raw_url")` */
  function RawUrlOf(e: FileEntry): Option<string>
  {
    if "raw_url" in e then Some(e["raw_url"]) else None
  }

  /** The only key of a one-key map. */
  function OnlyKey(keys: set<string>): (k: string)
    requires |keys| == 1
    ensures keys == {k}
  {
    var k :| k in keys;
    assert |keys - {k}| == 0;
    k
  }

  /** The file-pick rule of `get_gist_raw_url`: the named file when it is there and not empty,
      else the only file when there is exactly one, else nothing. */
  function PickRawUrl(files: map<string, FileEntry>, filename: string): (r: Option<string>)
    ensures filename in files && files[filename] != map[] ==> r == RawUrlOf(files[filename])
    ensures !(filename in files && files[filename] != map[]) && |files| == 1 ==>
      forall name :: name in files ==> r == RawUrlOf(files[name])
    ensures !(filename in files && files[filename] != map[]) && |files| != 1 ==> r.None?
  {
    if filename in files && files[filename] != map[] then RawUrlOf(files[filename])
    else if |files| == 1 then RawUrlOf(files[OnlyKey(files.Keys)])
    else None
  }

  /** The answer of the gist API: a failure (exception or a status other than 200) or the
      `files` object of the JSON body (`{}` when absent). */
  datatype ApiAnswer = ApiFailed | ApiFiles(files: map<string, FileEntry>)

  /** The API URL of a gist. */
  function GistApiUrl(id: string): string
  {
    GistApiBase + "/" + id
  }

  /** `get_gist_raw_url(session, source, filename)`, the API call given as `api`. */
  function ResolveRawUrl(source: string, filename: string, api: string -> ApiAnswer): (r: Option<string>)
    ensures GistIdFromUrl(source).None? ==> r.None?
    ensures r.Some? ==> exists files ::
      api(GistApiUrl(GistIdFromUrl(source).value)) == ApiFiles(files) && r == PickRawUrl(files, filename)
    ensures GistIdFromUrl(source).Some? ==>
      r == match api(GistApiUrl(GistIdFromUrl(source).value))
        case ApiFailed => None
        case ApiFiles(files) => PickRawUrl(files, filename)
  {
    match GistIdFromUrl(source)
    case None => None
    case Some(id) =>
      match api(GistApiUrl(id))
      case ApiFailed => None
      case ApiFiles(files) => PickRawUrl(files, filename)
  }
}

=== FILE: Music.dfy ===
/** The `Music` cog and the player it drives: the cookie cache fields, query resolution, the
    direct play and the play command with its provider fallback, as methods on objects proved
    against the functions of `Cookies`, `Resolve`, `Providers` and `Nodes`. */
module Music {
  import opened Wrappers
  import opened Text
  import opened Audio
  import opened Gist
  import opened Providers
  import opened Nodes
  import opened Cookies
  import opened Resolve

  /** Everything outside the cog that the play command consults: HTTP, the extractor, the URL
      test, the clock, whether `player.play` / `node.play` return without raising, and the
      outcome of a provider search on a node. */
  datatype World = World(
    web: Web,
    extract: ExtractCall -> ExtractAnswer,
    isUrl: string -> bool,
    now: nat,
    playerPlays: Option<string> -> bool,
    nodePlays: (Node, Option<string>) -> bool,
    search: (ProviderClass, string, Node) -> SearchOutcome)

  /** How the play command ends. `SearchRaised`: an exception escaped the node loop. */
  datatype PlayReply =
    | NotConnected
    | NotSameChannel
    | EmptyQuery
    | PlayingDirect(title: string)
    | NoTrackFound
    | SearchRaised
    | AddedPlaylist(tracks: seq<Track>)
    | AddedTrack(track: Track)

  /** A metadata dict with none of the keys the model keeps: Python-falsy `{}`. */
  predicate EmptyMeta(meta: Info)
  {
    meta == Info([], None, false, [], None, None)
  }

  /** The entry chosen by the extractor path is never empty, so it is always attached. */
  lemma ChosenEntryNotEmpty(info: Option<Info>)
    requires ChooseAudio(info).Some?
    ensures !EmptyMeta(ChooseAudio(info).value.entry)
  {
  }

  /** `query.strip("<>").strip()`: the angle brackets are stripped first, then the whitespace;
      the result is empty exactly when what is left after the brackets is all whitespace. */
  function NormalizeQuery(q: string): (r: string)
    ensures var w := Strip(q, {'<', '>'});
      StrippedAt(w, Whitespace, |w| - |LStrip(w, Whitespace)|, r)
    ensures var w := Strip(q, {'<', '>'});
      r == [] <==> forall i :: 0 <= i < |w| ==> w[i] in Whitespace
    ensures |r| <= |q|
  {
    var w := Strip(q, {'<', '>'});
    Strip(w, Whitespace)
  }

  /** `meta.get('title') or query` */
  function TitleOr(meta: Info, query: string): (r: string)
    ensures Truthy(meta.title) ==> r == meta.title.value
    ensures r == "" <==> !Truthy(meta.title) && query == ""
  {
    if Truthy(meta.title) then meta.title.value else query
  }

  /** The direct play succeeds: the player plays the URL, or else the first node of the pool. */
  predicate DirectPlays(pool: seq<Node>, url: Option<string>, world: World)
  {
    world.playerPlays(url) || (pool != [] && world.nodePlays(pool[0], url))
  }

  /** The search on a node with the resolved class; with no class, `None.search` raises. */
  function SearchFor(cls: Option<ProviderClass>, query: string, search: (ProviderClass, string, Node) -> SearchOutcome): Node -> SearchOutcome
  {
    (n: Node) => if cls.Some? then search(cls.value, query, n) else Raised
  }

  /** The reply of the provider fallback from the end of the node loop. */
  function FallbackReply(end: DispatchEnd): (r: PlayReply)
    ensures r == SearchRaised <==> end.Aborted?
    ensures r == NoTrackFound <==> end.Exhausted? || (end.Answered? && !Found(end.result))
    ensures r.AddedPlaylist? <==> end.Answered? && end.result.Playlist?
    ensures r.AddedPlaylist? ==> r.tracks == end.result.tracks
    ensures r.AddedTrack? <==> end.Answered? && end.result.TrackList? && end.result.items != []
    ensures r.AddedTrack? ==> r.track == end.result.items[0]
  {
    match end
    case Aborted => SearchRaised
    case Exhausted => NoTrackFound
    case Answered(result) =>
      if !Found(result) then NoTrackFound
      else if result.Playlist? then AddedPlaylist(result.tracks)
      else AddedTrack(result.items[0])
  }

  /** The tracks a reply says were queued. */
  function Enqueued(reply: PlayReply): seq<Track>
  {
    match reply
    case AddedPlaylist(tracks) => tracks
    case AddedTrack(track) => [track]
    case _ => []
  }

  /** With no provider class every node raises, so the loop stops at the first node. */
  lemma NoProviderAborts(pool: seq<Node>, query: string, search: (ProviderClass, string, Node) -> SearchOutcome)
    requires pool != []
    ensures var s := SearchFor(None, query, search);
      FallbackReply(EndOf(RankByLoad(pool), s)) == SearchRaised && StopIndex(RankByLoad(pool), s) == 0
  {
    var snapshot := RankByLoad(pool);
    var s := SearchFor(None, query, search);
    assert |snapshot| == |pool| by {
      assert |multiset(snapshot)| == |multiset(pool)|;
    }
    assert s(snapshot[0]).Raised?;
  }

  /** Everything the play command reads and changes: the cookie cache, the node pool and the
      player's source, queue, playing flag and provider attribute. */
  datatype CommandState = CommandState(cache: CacheState, nodes: seq<Node>, source: Option<Info>,
                                       queue: seq<Track>, playing: bool, trackProvider: ProviderAttr)

  /** The play command for a connected player on channel `channelId`: a member elsewhere and an
      empty query are refused with nothing changed; otherwise the query is played as `Played`
      says, and `do_next` is called when tracks were queued on an idle player. */
  ghost predicate Responded(before: CommandState, channelId: nat, cookieSource: Option<string>, cookieFilename: string,
                            memberChannel: Option<nat>, rawQuery: string, provider: Option<string>, world: World,
                            after: CommandState, reply: PlayReply, calledDoNext: bool)
  {
    if memberChannel != Some(channelId) then reply == NotSameChannel && !calledDoNext && after == before
    else if NormalizeQuery(rawQuery) == "" then reply == EmptyQuery && !calledDoNext && after == before
    else
      && Played(before, cookieSource, cookieFilename, NormalizeQuery(rawQuery), provider, world, after, reply)
      && (calledDoNext <==> (reply.AddedPlaylist? || reply.AddedTrack?) && !before.playing)
  }

  /** The play of a non-empty `query`: the cookies are fetched (the only change to the cache),
      the query is resolved with them, and the resolution is played as `PlayedChosen` says. */
  ghost predicate Played(before: CommandState, cookieSource: Option<string>, cookieFilename: string,
                         query: string, provider: Option<string>, world: World,
                         after: CommandState, reply: PlayReply)
  {
    var fetched := Fetch(before.cache, cookieSource, cookieFilename, world.web, world.now);
    var chosen := ResolveQuery(query, fetched.text, world.isUrl, world.extract).chosen;
    PlayedChosen(before.(cache := fetched.cache), chosen, query, provider, world, after, reply)
  }

  /** The play of a resolution: a chosen stream that plays directly becomes the player's source
      (unless its metadata is empty) and nothing else changes; otherwise the provider fallback
      searches the ranked nodes, evicting those that time out, replies from the end of the
      search and queues exactly the tracks the reply names. The cache, the playing flag and the
      provider attribute never change. */
  ghost predicate PlayedChosen(before: CommandState, chosen: Option<Choice>, query: string,
                               provider: Option<string>, world: World, after: CommandState, reply: PlayReply)
  {
    var direct := chosen.Some? && DirectPlays(before.nodes, chosen.value.url, world);
    var snapshot := RankByLoad(before.nodes);
    var search := SearchFor(ResolveProvider(provider, before.trackProvider, query), query, world.search);
    && after.cache == before.cache
    && after.playing == before.playing
    && after.trackProvider == before.trackProvider
    && after.queue == before.queue + Enqueued(reply)
    && (direct ==>
          && reply == PlayingDirect(TitleOr(chosen.value.entry, query))
          && after.nodes == before.nodes
          && after.source == (if EmptyMeta(chosen.value.entry) then before.source else Some(chosen.value.entry)))
    && (!direct ==>
          && reply == FallbackReply(EndOf(snapshot, search))
          && after.source == before.source
          && after.nodes == WithoutIds(before.nodes, TimedOutIds(snapshot[..StopIndex(snapshot, search)], search)))
  }

  /** A direct play never reports an empty title: the query it falls back on is not empty. */
  lemma DirectReplyNamesTitle(before: CommandState, channelId: nat, cookieSource: Option<string>,
                              cookieFilename: string, memberChannel: Option<nat>, rawQuery: string,
                              provider: Option<string>, world: World, after: CommandState,
                              reply: PlayReply, calledDoNext: bool)
    requires Responded(before, channelId, cookieSource, cookieFilename, memberChannel, rawQuery, provider,
                       world, after, reply, calledDoNext)
    requires reply.PlayingDirect?
    ensures reply.title != ""
  {
    var query := NormalizeQuery(rawQuery);
    var fetched := Fetch(before.cache, cookieSource, cookieFilename, world.web, world.now);
    var chosen := ResolveQuery(query, fetched.text, world.isUrl, world.extract).chosen;
    DirectTitleNotEmpty(before.(cache := fetched.cache), chosen, query, provider, world, after, reply);
  }

  /** The play of a resolution for a non-empty query never reports an empty title. */
  lemma DirectTitleNotEmpty(before: CommandState, chosen: Option<Choice>, query: string,
                            provider: Option<string>, world: World, after: CommandState, reply: PlayReply)
    requires PlayedChosen(before, chosen, query, provider, world, after, reply)
    requires reply.PlayingDirect? && query != ""
    ensures reply.title != ""
  {
    if !(chosen.Some? && DirectPlays(before.nodes, chosen.value.url, world)) {
      assert false;
    }
  }

  /** A voice player: the fields the play command reads and updates. */
  class Player {
    const channelId: nat
    var queue: seq<Track>
    var playing: bool
    var trackProvider: ProviderAttr
    var source: Option<Info>

    constructor (channelId: nat, trackProvider: ProviderAttr)
      ensures this.channelId == channelId && this.trackProvider == trackProvider
      ensures queue == [] && !playing && source == None
    {
      this.channelId := channelId;
      this.trackProvider := trackProvider;
      queue := [];
      playing := false;
      source := None;
    }

    /** `queue.put(t)` */
    method Put(t: Track)
      modifies this`queue
      ensures queue == old(queue) + [t]
    {
      queue := queue + [t];
    }
  }

  /** The cog: its cookie source and the in-memory cookie cache. */
  class Cog {
    var cookieGistSource: Option<string>
    var cookieFilename: string
    var cachedCookiesText: Option<string>
    var cachedCookiesFetchedAt: Option<nat>

    /** The cache as a value. */
    function Cache(): CacheState
      reads this
    {
      CacheState(cachedCookiesText, cachedCookiesFetchedAt)
    }

    /** The state the play command reads and changes, as a value. */
    function State(player: Player, pool: NodePool): CommandState
      reads this, player, pool
    {
      CommandState(Cache(), pool.nodes, player.source, player.queue, player.playing, player.trackProvider)
    }

    constructor ()
      ensures cookieGistSource == Some(GistPageOrId) && cookieFilename == GistFilename
      ensures Cache() == CacheState(None, None)
    {
      cookieGistSource := Some(GistPageOrId);
      cookieFilename := GistFilename;
      cachedCookiesText := None;
      cachedCookiesFetchedAt := None;
    }

    /** `_fetch_cookies_text` */
    method FetchCookiesText(web: Web, now: nat) returns (text: Option<string>, requests: seq<Request>)
      modifies this`cachedCookiesText, this`cachedCookiesFetchedAt
      ensures var r := Fetch(old(Cache()), cookieGistSource, cookieFilename, web, now);
        Cache() == r.cache && text == r.text && requests == r.requests
    {
      requests := [];
      if cachedCookiesText.Some? {
        return cachedCookiesText, requests;
      }
      if !Truthy(cookieGistSource) {
        return None, requests;
      }
      var candidate := cookieGistSource.value;
      if !IsRawLocation(candidate) {
        var resolved := ResolveRawUrl(candidate, cookieFilename, web.api);
        requests := Locate(candidate, cookieFilename, web).requests;
        if !Truthy(resolved) {
          return None, requests;
        }
        candidate := resolved.value;
      }
      requests := requests + [GetRequest(candidate)];
      var answer := web.get(candidate);
      if answer.HttpResponse? && answer.status == 200 {
        cachedCookiesText := Some(answer.body);
        cachedCookiesFetchedAt := Some(now);
        return Some(answer.body), requests;
      }
      text := None;
    }

    /** `_refresh_cookies` */
    method RefreshCookies(web: Web, now: nat) returns (ok: bool, detail: Option<string>, requests: seq<Request>)
      modifies this`cachedCookiesText, this`cachedCookiesFetchedAt
      ensures var r := Refresh(old(Cache()), cookieGistSource, cookieFilename, web, now);
        Cache() == r.cache && ok == r.ok && detail == r.detail && requests == r.requests
    {
      requests := [];
      if !Truthy(cookieGistSource) {
        return false, Some(NoSourceMessage), requests;
      }
      var candidate := cookieGistSource.value;
      if !IsRawLocation(candidate) {
        var resolved := ResolveRawUrl(candidate, cookieFilename, web.api);
        requests := Locate(candidate, cookieFilename, web).requests;
        if !Truthy(resolved) {
          return false, Some(ResolveFailedMessage), requests;
        }
        candidate := resolved.value;
      }
      requests := requests + [GetRequest(candidate)];
      match web.get(candidate)
      case HttpRaised(message) =>
        ok, detail := false, Some(message);
      case HttpResponse(status, body) =>
        if status == 200 {
          cachedCookiesText := Some(body);
          cachedCookiesFetchedAt := Some(now);
          ok, detail := true, None;
        } else {
          ok, detail := false, Some("HTTP " + DecimalString(status));
        }
    }

    /** The `refreshcookies` command. */
    method RefreshCookiesCommand(force: bool, web: Web, now: nat) returns (reply: Reply, requests: seq<Request>)
      modifies this`cachedCookiesText, this`cachedCookiesFetchedAt
      ensures var r := RefreshCommand(old(Cache()), cookieGistSource, cookieFilename, force, web, now);
        Cache() == r.cache && reply == r.reply && requests == r.requests
    {
      if !Truthy(cookieGistSource) {
        return NoSource, [];
      }
      if Truthy(cachedCookiesText) && !force {
        return AlreadyCached(cachedCookiesFetchedAt.GetOr(0)), [];
      }
      var ok, detail;
      ok, detail, requests := RefreshCookies(web, now);
      reply := if ok then Refreshed else RefreshFailed(detail);
    }

    /** `_resolve_query_to_url_with_ytdlp`: fetches the cookies, then resolves. */
    method ResolveQueryToUrl(rawQuery: string, world: World)
      returns (chosen: Option<Choice>, calls: seq<ExtractCall>, requests: seq<Request>)
      modifies this`cachedCookiesText, this`cachedCookiesFetchedAt
      ensures var fetched := Fetch(old(Cache()), cookieGistSource, cookieFilename, world.web, world.now);
        Cache() == fetched.cache && requests == fetched.requests
        && Resolution(chosen, calls) == ResolveQuery(rawQuery, fetched.text, world.isUrl, world.extract)
    {
      var cookies;
      cookies, requests := FetchCookiesText(world.web, world.now);
      chosen, calls := ResolveWith(rawQuery, cookies, world);
    }

    /** The extractor calls of `_resolve_query_to_url_with_ytdlp` once the cookies are known. */
    method ResolveWith(rawQuery: string, cookies: Option<string>, world: World)
      returns (chosen: Option<Choice>, calls: seq<ExtractCall>)
      ensures Resolution(chosen, calls) == ResolveQuery(rawQuery, cookies, world.isUrl, world.extract)
    {
      var query := Strip(rawQuery, Whitespace);
      var ytdlpQuery := if world.isUrl(query) then query else "ytsearch:" + query;
      var answer;
      answer, calls := ExtractWithRetry(ytdlpQuery, cookies, world);
      chosen, calls := ChooseWithFollowUp(answer, calls, cookies, world);
    }

    /** The first extractor call, retried once without cookies when it raises. */
    method ExtractWithRetry(query: string, cookies: Option<string>, world: World)
      returns (answer: ExtractAnswer, calls: seq<ExtractCall>)
      ensures calls == FirstCalls(query, cookies, world.extract)
      ensures answer == MainAnswer(calls, world.extract)
    {
      var first := ExtractCall(query, CookieFile(cookies));
      calls := [first];
      answer := world.extract(first);
      if answer.ExtractRaised? {
        var retry := ExtractCall(query, None);
        calls := calls + [retry];
        answer := world.extract(retry);
      }
    }

    /** The choice from the main answer, with the follow-up call when it has no stream. */
    method ChooseWithFollowUp(answer: ExtractAnswer, calls0: seq<ExtractCall>, cookies: Option<string>, world: World)
      returns (chosen: Option<Choice>, calls: seq<ExtractCall>)
      ensures Resolution(chosen, calls) == FromAnswer(answer, calls0, cookies, world.extract)
    {
      calls := calls0;
      if answer.ExtractRaised? || answer.info.None? {
        return None, calls;
      }
      var info := answer.info.value;
      chosen := ChooseAudio(Some(info));
      if chosen.None? && info.entries != [] {
        var entry := info.entries[0];
        var url := if Truthy(entry.webpageUrl) then entry.webpageUrl else entry.url;
        if Truthy(url) {
          var followUp := ExtractCall(url.value, CookieFile(cookies));
          calls := calls + [followUp];
          var second := world.extract(followUp);
          chosen := if second.Extracted? then ChooseAudio(second.info) else None;
        }
      }
    }

    /** `play_direct_url_on_player`: the player plays the URL, or else the first node of the
        pool does; on success non-empty metadata becomes the player's source. */
    method PlayDirectUrl(player: Player, url: Option<string>, meta: Info, pool: NodePool, world: World) returns (ok: bool)
      modifies player`source
      ensures ok == DirectPlays(pool.nodes, url, world)
      ensures player.source == if ok && !EmptyMeta(meta) then Some(meta) else old(player.source)
    {
      if world.playerPlays(url) {
        ok := true;
      } else if pool.nodes != [] && world.nodePlays(pool.nodes[0], url) {
        ok := true;
      } else {
        return false;
      }
      if !EmptyMeta(meta) {
        player.source := Some(meta);
      }
    }

    /** The provider fallback of the play command: resolve the class, search the ranked nodes,
        queue what was found. */
    method Fallback(player: Player, query: string, provider: Option<string>, pool: NodePool, world: World)
      returns (reply: PlayReply)
      requires pool.Valid()
      modifies player`queue, pool
      ensures pool.Valid()
      ensures var snapshot := RankByLoad(old(pool.nodes));
        var search := SearchFor(ResolveProvider(provider, player.trackProvider, query), query, world.search);
        reply == FallbackReply(EndOf(snapshot, search))
        && pool.nodes == WithoutIds(old(pool.nodes), TimedOutIds(snapshot[..StopIndex(snapshot, search)], search))
      ensures player.queue == old(player.queue) + Enqueued(reply)
    {
      var cls := ResolveProvider(provider, player.trackProvider, query);
      var end, tried := pool.Dispatch(SearchFor(cls, query, world.search));
      reply := Enqueue(player, end);
    }

    /** The end of the play command: nothing found, or the playlist's tracks in order, or the
        first track of the list, put on the player's queue. */
    method Enqueue(player: Player, end: DispatchEnd) returns (reply: PlayReply)
      modifies player`queue
      ensures reply == FallbackReply(end)
      ensures player.queue == old(player.queue) + Enqueued(reply)
    {
      match end
      case Aborted =>
        reply := SearchRaised;
      case Exhausted =>
        reply := NoTrackFound;
      case Answered(result) =>
        if !Found(result) {
          reply := NoTrackFound;
        } else if result.Playlist? {
          var i := 0;
          while i < |result.tracks|
            invariant i <= |result.tracks|
            invariant player.queue == old(player.queue) + result.tracks[..i]
          {
            player.Put(result.tracks[i]);
            i := i + 1;
          }
          assert result.tracks[..i] == result.tracks;
          reply := AddedPlaylist(result.tracks);
        } else {
          player.Put(result.items[0]);
          reply := AddedTrack(result.items[0]);
        }
    }

    /** `play_track_interaction`: the voice guards, then the play of the normalised query;
        `do_next` is called when something was queued and the player is idle. */
    method PlayTrackInteraction(player: Player?, memberChannel: Option<nat>, rawQuery: string,
                                provider: Option<string>, pool: NodePool, world: World)
      returns (reply: PlayReply, calledDoNext: bool)
      requires pool.Valid()
      modifies this`cachedCookiesText, this`cachedCookiesFetchedAt, player, pool
      ensures pool.Valid()
      ensures player == null ==> reply == NotConnected && !calledDoNext && unchanged(this, pool)
      ensures player != null ==>
        Responded(old(State(player, pool)), player.channelId, cookieGistSource, cookieFilename,
                  memberChannel, rawQuery, provider, world, State(player, pool), reply, calledDoNext)
    {
      if player == null {
        return NotConnected, false;
      }
      reply, calledDoNext := PlayForMember(player, memberChannel, rawQuery, provider, pool, world);
    }

    /** The play command once a player is connected. */
    method PlayForMember(player: Player, memberChannel: Option<nat>, rawQuery: string,
                         provider: Option<string>, pool: NodePool, world: World)
      returns (reply: PlayReply, calledDoNext: bool)
      requires pool.Valid()
      modifies this`cachedCookiesText, this`cachedCookiesFetchedAt, player`queue, player`source, pool
      ensures pool.Valid()
      ensures Responded(old(State(player, pool)), player.channelId, cookieGistSource, cookieFilename,
                        memberChannel, rawQuery, provider, world, State(player, pool), reply, calledDoNext)
    {
      if memberChannel != Some(player.channelId) {
        return NotSameChannel, false;
      }
      var query := NormalizeQuery(rawQuery);
      if query == "" {
        assert State(player, pool) == old(State(player, pool));
        return EmptyQuery, false;
      }
      reply := PlayQuery(player, query, provider, pool, world);
      calledDoNext := (reply.AddedPlaylist? || reply.AddedTrack?) && !player.playing;
    }

    /** The play of a non-empty query: yt-dlp resolution and direct play first, the provider
        fallback when either fails. */
    method PlayQuery(player: Player, query: string, provider: Option<string>, pool: NodePool, world: World)
      returns (reply: PlayReply)
      requires pool.Valid()
      modifies this`cachedCookiesText, this`cachedCookiesFetchedAt, player`queue, player`source, pool
      ensures pool.Valid()
      ensures Played(old(State(player, pool)), cookieGistSource, cookieFilename, query, provider, world,
                     State(player, pool), reply)
    {
      ghost var fetched := Fetch(Cache(), cookieGistSource, cookieFilename, world.web, world.now);
      ghost var before := State(player, pool);
      var chosen, calls, requests := ResolveQueryToUrl(query, world);
      assert chosen == ResolveQuery(query, fetched.text, world.isUrl, world.extract).chosen;
      assert State(player, pool) == before.(cache := fetched.cache);
      reply := PlayChosen(player, query, chosen, provider, pool, world);
    }

    /** The direct play of a resolution, and the provider fallback when there is none or it fails. */
    method PlayChosen(player: Player, query: string, chosen: Option<Choice>, provider: Option<string>,
                      pool: NodePool, world: World)
      returns (reply: PlayReply)
      requires pool.Valid()
      modifies player`queue, player`source, pool
      ensures pool.Valid()
      ensures PlayedChosen(old(State(player, pool)), chosen, query, provider, world, State(player, pool), reply)
    {
      if chosen.Some? {
        var ok := PlayDirectUrl(player, chosen.value.url, chosen.value.entry, pool, world);
        if ok {
          return PlayingDirect(TitleOr(chosen.value.entry, query));
        }
      }
      reply := Fallback(player, query, provider, pool, world);
    }
  }
}

=== FILE: Nodes.dfy ===
/** The Lavalink node pool: ranking by load (`get_nodes`) and the search loop over the ranked
    nodes that evicts the nodes that time out. */
module Nodes {
  import opened Wrappers

  /** A node of `wavelink.NodePool._nodes`; `players` is `len(node.players)`. */
  datatype Node = Node(identifier: string, players: nat)

  /** A track as the queue sees it. */
  datatype Track = Track(title: string, identifier: string)

  /** What `provider_cls.search` returns: a playlist object, a list of tracks, or `None`. */
  datatype SearchResult = Playlist(tracks: seq<Track>) | TrackList(items: seq<Track>) | NoResult

  /** Python truthiness of a search result: a playlist object is always truthy. */
  predicate Found(r: SearchResult)
  {
    r.Playlist? || (r.TrackList? && r.items != [])
  }

  /** The outcome of one search attempt on one node: the 20-unit timeout fired, a
      `LavalinkException`/`LoadTrackError`, any other exception (which the loop does not catch),
      or a returned result. */
  datatype SearchOutcome = TimedOut | LavalinkError | Raised | Returned(result: SearchResult)

  /** How the loop over the nodes ends: a node returned, every node failed, or an exception
      escaped. */
  datatype DispatchEnd = Answered(result: SearchResult) | Exhausted | Aborted

  /** The attempt moves on to the next node. */
  predicate Continues(o: SearchOutcome)
  {
    o.TimedOut? || o.LavalinkError?
  }

  /** No two nodes share an identifier (the pool is a dict keyed by identifier). */
  predicate DistinctIds(s: seq<Node>)
  {
    forall a, b :: a in s && b in s && a.identifier == b.identifier ==> a == b
  }

  /** Ranking order: load never decreases. */
  predicate LoadSorted(s: seq<Node>)
  {
    forall i, j :: 0 <= i < j < |s| ==> s[i].players <= s[j].players
  }

  /** The nodes of `s` with load `c`, in order. */
  function WithLoad(s: seq<Node>, c: nat): seq<Node>
  {
    if s == [] then [] else (if s[0].players == c then [s[0]] else []) + WithLoad(s[1..], c)
  }

  /** Puts `x`, which came before every node of `s`, in front of the first node with at least
      its load. */
  function InsertByLoad(x: Node, s: seq<Node>): (r: seq<Node>)
    ensures |r| == |s| + 1 && (r[0] == x || (s != [] && r[0] == s[0]))
  {
    if s == [] || x.players <= s[0].players then [x] + s
    else [s[0]] + InsertByLoad(x, s[1..])
  }

  /** Inserting into a sorted sequence keeps it sorted. */
  lemma {:induction false} InsertByLoadSorted(x: Node, s: seq<Node>)
    requires LoadSorted(s)
    ensures LoadSorted(InsertByLoad(x, s))
    decreases |s|
  {
    if s == [] || x.players <= s[0].players {
      ConsLoadSorted(x, s);
    } else {
      var rest := InsertByLoad(x, s[1..]);
      InsertByLoadSorted(x, s[1..]);
      assert s[0].players <= rest[0].players by {
        if rest[0] != x {
          assert rest[0] == s[1];
        }
      }
      ConsLoadSorted(s[0], rest);
    }
  }

  /** Inserting adds exactly `x`. */
  lemma {:induction false} InsertByLoadPermutes(x: Node, s: seq<Node>)
    ensures multiset(InsertByLoad(x, s)) == multiset(s) + multiset{x}
    decreases |s|
  {
    if !(s == [] || x.players <= s[0].players) {
      InsertByLoadPermutes(x, s[1..]);
      assert s == [s[0]] + s[1..];
    }
  }

  /** A node with no more load than the head of a sorted sequence extends it. */
  lemma ConsLoadSorted(h: Node, rest: seq<Node>)
    requires LoadSorted(rest) && (rest == [] || h.players <= rest[0].players)
    ensures LoadSorted([h] + rest)
  {
    var r := [h] + rest;
    forall i, j | 0 <= i < j < |r| ensures r[i].players <= r[j].players {
      if i == 0 && j > 1 {
        assert rest[0].players <= rest[j - 1].players;
      }
    }
  }

  /** Inserting `x` puts it ahead of the nodes of equal load and moves no other node past one of
      equal load. */
  lemma {:induction false} InsertByLoadStable(x: Node, s: seq<Node>, c: nat)
    requires LoadSorted(s)
    ensures WithLoad(InsertByLoad(x, s), c) == if x.players == c then [x] + WithLoad(s, c) else WithLoad(s, c)
    decreases |s|
  {
    var r := InsertByLoad(x, s);
    if s == [] || x.players <= s[0].players {
      assert r[1..] == s;
      if s != [] && x.players == c && s[0].players != c {
        assert x.players <= s[0].players;
      }
    } else {
      var rest := InsertByLoad(x, s[1..]);
      assert r[1..] == rest;
      InsertByLoadStable(x, s[1..], c);
    }
  }

  /** `get_nodes`: `sorted(pool, key=len(players))`, a stable sort by increasing load. The result
      is a permutation of the pool and never decreases in load. */
  function RankByLoad(pool: seq<Node>): (r: seq<Node>)
    ensures |r| == |pool| && multiset(r) == multiset(pool)
    ensures LoadSorted(r)
  {
    if pool == [] then []
    else
      var rest := RankByLoad(pool[1..]);
      assert pool == [pool[0]] + pool[1..];
      InsertByLoadSorted(pool[0], rest);
      InsertByLoadPermutes(pool[0], rest);
      InsertByLoad(pool[0], rest)
  }

  /** The ranking keeps pool order among nodes of equal load. */
  lemma {:induction false} RankByLoadStable(pool: seq<Node>, c: nat)
    ensures WithLoad(RankByLoad(pool), c) == WithLoad(pool, c)
    decreases |pool|
  {
    if pool != [] {
      RankByLoadStable(pool[1..], c);
      InsertByLoadStable(pool[0], RankByLoad(pool[1..]), c);
    }
  }

  /** The ranking keeps pool order among nodes of every load. */
  lemma RankByLoadStableAll(pool: seq<Node>)
    ensures forall c :: WithLoad(RankByLoad(pool), c) == WithLoad(pool, c)
  {
    forall c {
      RankByLoadStable(pool, c);
    }
  }

  /** `s` without the nodes whose identifiers are in `ids`, in order. */
  function WithoutIds(s: seq<Node>, ids: set<string>): (r: seq<Node>)
    ensures |r| <= |s|
  {
    if s == [] then []
    else (if s[0].identifier in ids then [] else [s[0]]) + WithoutIds(s[1..], ids)
  }

  /** A node survives the removal exactly when its identifier is not removed. */
  lemma {:induction false} WithoutIdsMembers(s: seq<Node>, ids: set<string>, n: Node)
    ensures n in WithoutIds(s, ids) <==> n in s && n.identifier !in ids
    decreases |s|
  {
    if s != [] {
      WithoutIdsMembers(s[1..], ids, n);
      assert s == [s[0]] + s[1..];
    }
  }

  /** Removing nodes keeps the identifiers distinct. */
  lemma WithoutIdsDistinct(s: seq<Node>, ids: set<string>)
    requires DistinctIds(s)
    ensures DistinctIds(WithoutIds(s, ids))
  {
    forall a, b | a in WithoutIds(s, ids) && b in WithoutIds(s, ids) && a.identifier == b.identifier
      ensures a == b
    {
      WithoutIdsMembers(s, ids, a);
      WithoutIdsMembers(s, ids, b);
    }
  }

  /** Removing no identifier changes nothing. */
  lemma {:induction false} WithoutNoIds(s: seq<Node>)
    ensures WithoutIds(s, {}) == s
    decreases |s|
  {
    if s != [] {
      WithoutNoIds(s[1..]);
      assert s == [s[0]] + s[1..];
    }
  }

  /** Removing two sets of identifiers one after the other removes their union. */
  lemma {:induction false} WithoutIdsTwice(s: seq<Node>, a: set<string>, b: set<string>)
    ensures WithoutIds(WithoutIds(s, a), b) == WithoutIds(s, a + b)
    decreases |s|
  {
    if s != [] {
      var tail := WithoutIds(s[1..], a);
      WithoutIdsTwice(s[1..], a, b);
      if s[0].identifier in a {
        assert WithoutIds(s, a) == tail;
        assert s[0].identifier in a + b;
      } else {
        var w := [s[0]] + tail;
        assert WithoutIds(s, a) == w;
        assert w[0] == s[0] && w[1..] == tail;
        assert WithoutIds(w, b) == (if s[0].identifier in b then [] else [s[0]]) + WithoutIds(tail, b);
        assert (s[0].identifier in a + b) == (s[0].identifier in b);
      }
    }
  }

  /** The identifiers of the timed-out nodes among `walked`. */
  function TimedOutIds(walked: seq<Node>, search: Node -> SearchOutcome): set<string>
    decreases |walked|
  {
    if walked == [] then {}
    else
      var last := walked[|walked| - 1];
      TimedOutIds(walked[..|walked| - 1], search) + (if search(last).TimedOut? then {last.identifier} else {})
  }

  /** An identifier is collected exactly when some walked node with it timed out. */
  lemma {:induction false} TimedOutIdsMembers(walked: seq<Node>, search: Node -> SearchOutcome, id: string)
    ensures id in TimedOutIds(walked, search) <==>
      exists w :: w in walked && search(w).TimedOut? && w.identifier == id
    decreases |walked|
  {
    if walked != [] {
      var init, last := walked[..|walked| - 1], walked[|walked| - 1];
      assert walked == init + [last];
      TimedOutIdsMembers(init, search, id);
      if id in TimedOutIds(init, search) {
        var w :| w in init && search(w).TimedOut? && w.identifier == id;
        assert w in walked;
      }
    }
  }

  /** The index of the first node whose attempt ends the loop, `|snapshot|` when none does. */
  function StopIndex(snapshot: seq<Node>, search: Node -> SearchOutcome): (k: nat)
    ensures k <= |snapshot|
    ensures forall i :: 0 <= i < k ==> Continues(search(snapshot[i]))
    ensures k < |snapshot| ==> !Continues(search(snapshot[k]))
    decreases |snapshot|
  {
    if snapshot == [] || !Continues(search(snapshot[0])) then 0
    else 1 + StopIndex(snapshot[1..], search)
  }

  /** The nodes searched, in order: up to and including the one that ended the loop. */
  function Tried(snapshot: seq<Node>, search: Node -> SearchOutcome): (t: seq<Node>)
    ensures t <= snapshot
    ensures forall i :: 0 <= i < |t| - 1 ==> Continues(search(t[i]))
    ensures |t| < |snapshot| ==> t != [] && !Continues(search(t[|t| - 1]))
  {
    var k := StopIndex(snapshot, search);
    if k < |snapshot| then snapshot[..k + 1] else snapshot
  }

  /** How the loop ends on `snapshot`. */
  function EndOf(snapshot: seq<Node>, search: Node -> SearchOutcome): (e: DispatchEnd)
    ensures e == Exhausted <==> forall i :: 0 <= i < |snapshot| ==> Continues(search(snapshot[i]))
    ensures e.Answered? ==> exists n :: n in snapshot && search(n) == Returned(e.result)
    ensures var k := StopIndex(snapshot, search);
      k < |snapshot| ==>
        && (search(snapshot[k]).Returned? ==> e == Answered(search(snapshot[k]).result))
        && (search(snapshot[k]).Raised? ==> e == Aborted)
  {
    var k := StopIndex(snapshot, search);
    if k == |snapshot| then Exhausted
    else match search(snapshot[k])
      case Returned(r) => Answered(r)
      case _ => Aborted
  }

  /** The pool after the loop over a snapshot of it (such as its ranking): exactly the nodes
      that were searched and timed out are gone; the others, those not searched included, stay
      in pool order. */
  lemma EvictsExactlyTimedOut(pool: seq<Node>, snapshot: seq<Node>, search: Node -> SearchOutcome, n: Node)
    requires DistinctIds(pool) && n in pool && multiset(snapshot) == multiset(pool)
    ensures n in WithoutIds(pool, TimedOutIds(snapshot[..StopIndex(snapshot, search)], search))
        <==> !(n in Tried(snapshot, search) && search(n).TimedOut?)
  {
    var walked := snapshot[..StopIndex(snapshot, search)];
    TimedOutIdsMembers(walked, search, n.identifier);
    WithoutIdsMembers(pool, TimedOutIds(walked, search), n);
    if n.identifier in TimedOutIds(walked, search) {
      var w :| w in walked && search(w).TimedOut? && w.identifier == n.identifier;
      assert w in multiset(snapshot);
      assert w == n;
    }
    if n in Tried(snapshot, search) && search(n).TimedOut? {
      assert n in walked;
    }
  }

  /** One more step of the walk removes the node just walked exactly when it timed out. */
  lemma EvictionStep(pool: seq<Node>, snapshot: seq<Node>, i: nat, search: Node -> SearchOutcome)
    requires i < |snapshot|
    ensures var before := WithoutIds(pool, TimedOutIds(snapshot[..i], search));
      WithoutIds(pool, TimedOutIds(snapshot[..i + 1], search))
        == if search(snapshot[i]).TimedOut? then WithoutIds(before, {snapshot[i].identifier}) else before
  {
    var node := snapshot[i];
    assert snapshot[..i + 1][..i] == snapshot[..i] && snapshot[..i + 1][i] == node;
    var evicted := TimedOutIds(snapshot[..i], search);
    assert TimedOutIds(snapshot[..i + 1], search)
      == evicted + (if search(node).TimedOut? then {node.identifier} else {});
    if search(node).TimedOut? {
      WithoutIdsTwice(pool, evicted, {node.identifier});
    } else {
      assert evicted + {} == evicted;
    }
  }

  /** `wavelink.NodePool._nodes`, a dict of nodes in registration order. */
  class NodePool {
    var nodes: seq<Node>

    ghost predicate Valid()
      reads this
    {
      DistinctIds(nodes)
    }

    constructor (nodes: seq<Node>)
      requires DistinctIds(nodes)
      ensures Valid() && this.nodes == nodes
    {
      this.nodes := nodes;
    }

    /** `get_nodes()`: the pool's nodes by increasing load, equal loads in pool order. */
    function Ranked(): (r: seq<Node>)
      reads this
      ensures multiset(r) == multiset(nodes) && LoadSorted(r)
      ensures forall c :: WithLoad(r, c) == WithLoad(nodes, c)
    {
      RankByLoadStableAll(nodes);
      RankByLoad(nodes)
    }

    /** `_nodes.pop(id, None)` */
    method Pop(id: string)
      requires Valid()
      modifies this
      ensures Valid()
      ensures nodes == WithoutIds(old(nodes), {id})
    {
      WithoutIdsDistinct(nodes, {id});
      nodes := WithoutIds(nodes, {id});
    }

    /** The search loop: walks a snapshot of the ranking in order, evicts a node that times
        out, skips a node that raises a Lavalink error, and stops at the first node that
        returns (even an empty result) or raises anything else. */
    method Dispatch(search: Node -> SearchOutcome) returns (end: DispatchEnd, tried: seq<Node>)
      requires Valid()
      modifies this
      ensures Valid()
      ensures tried == Tried(old(Ranked()), search)
      ensures end == EndOf(old(Ranked()), search)
      ensures nodes == WithoutIds(old(nodes), TimedOutIds(old(Ranked())[..StopIndex(old(Ranked()), search)], search))
    {
      var snapshot := Ranked();
      end, tried := Walk(snapshot, search);
    }

    /** The loop of `Dispatch` over a given snapshot. */
    method Walk(snapshot: seq<Node>, search: Node -> SearchOutcome) returns (end: DispatchEnd, tried: seq<Node>)
      requires Valid()
      modifies this
      ensures Valid()
      ensures tried == Tried(snapshot, search)
      ensures end == EndOf(snapshot, search)
      ensures nodes == WithoutIds(old(nodes), TimedOutIds(snapshot[..StopIndex(snapshot, search)], search))
    {
      ghost var pool := nodes;
      ghost var k := StopIndex(snapshot, search);
      var i := 0;
      tried := [];
      end := Exhausted;
      WithoutNoIds(pool);
      assert snapshot[..0] == [];
      while i < |snapshot| && end == Exhausted
        invariant i <= k
        invariant end != Exhausted ==> i == k < |snapshot|
        invariant Valid()
        invariant nodes == WithoutIds(pool, TimedOutIds(snapshot[..i], search))
        invariant tried == if end == Exhausted then snapshot[..i] else snapshot[..i + 1]
        invariant end != Exhausted ==>
          end == if search(snapshot[i]).Returned? then Answered(search(snapshot[i]).result) else Aborted
        decreases |snapshot| - i, if end == Exhausted then 1 else 0
      {
        var node := snapshot[i];
        var outcome := search(node);
        tried := tried + [node];
        assert snapshot[..i + 1] == snapshot[..i] + [node];
        if outcome.Returned? {
          end := Answered(outcome.result);
        } else if outcome.Raised? {
          end := Aborted;
        } else {
          EvictionStep(pool, snapshot, i, search);
          if outcome.TimedOut? {
            Pop(node.identifier);
          }
          i := i + 1;
        }
      }
      assert snapshot[..i] == snapshot || i < |snapshot|;
    }
  }
}

=== FILE: Providers.dfy ===
/** The provider-key table and the choice of the track class searched on the nodes. */
module Providers {
  import opened Wrappers
  import opened Text

  /** The wavelink track classes of the table. */
  datatype ProviderClass = YouTubeTrack | YouTubePlaylist | YouTubeMusicTrack | SoundCloudTrack | SpotifyTrack

  /** `track_providers` */
  const TrackProviders: map<string, ProviderClass> := map[
    "yt" := YouTubeTrack,
    "ytpl" := YouTubePlaylist,
    "ytmusic" := YouTubeMusicTrack,
    "soundcloud" := SoundCloudTrack,
    "spotify" := SpotifyTrack]

  /** The key under which a class is listed. */
  function KeyOf(c: ProviderClass): string
  {
    match c
    case YouTubeTrack => "yt"
    case YouTubePlaylist => "ytpl"
    case YouTubeMusicTrack => "ytmusic"
    case SoundCloudTrack => "soundcloud"
    case SpotifyTrack => "spotify"
  }

  /** `track_providers.get(key)`; `None` as a key finds nothing. */
  function Lookup(key: Option<string>): (r: Option<ProviderClass>)
    ensures r.Some? ==> key == Some(KeyOf(r.value))
    ensures r.None? <==> key.None? || key.value !in {"yt", "ytpl", "ytmusic", "soundcloud", "spotify"}
  {
    if key.Some? && key.value in TrackProviders then Some(TrackProviders[key.value]) else None
  }

  /** Every class is found under its own key. */
  lemma LookupInvertsKeyOf(c: ProviderClass)
    ensures Lookup(Some(KeyOf(c))) == Some(c)
  {
  }

  /** The player's `track_provider` attribute: absent, or present with a value that may be `None`. */
  datatype ProviderAttr = Unset | Attr(value: Option<string>)

  /** `getattr(player, "track_provider", default)` */
  function AttrOr(a: ProviderAttr, default: Option<string>): Option<string>
  {
    match a
    case Unset => default
    case Attr(v) => v
  }

  /** The key after `provider or player.track_provider` and the `"yt"` to `"ytpl"` switch for
      queries that mention a playlist. */
  function ProviderKey(explicit: Option<string>, attr: ProviderAttr, query: string): Option<string>
  {
    var key := if Truthy(explicit) then explicit else AttrOr(attr, None);
    if key == Some("yt") && Contains(query, "playlist") then Some("ytpl") else key
  }

  /** The class searched: the table entry of the key when it is truthy, else the entry of the
      player's attribute read with default `"yt"`. */
  function ResolveProvider(explicit: Option<string>, attr: ProviderAttr, query: string): (r: Option<ProviderClass>)
    ensures explicit == Some("yt") && Contains(query, "playlist") ==> r == Some(YouTubePlaylist)
    ensures Truthy(explicit) && explicit != Some("yt") ==> r == Lookup(explicit)
    ensures !Truthy(explicit) && attr == Unset ==> r == Some(YouTubeTrack)
    ensures !Truthy(explicit) && attr.Attr? && !Truthy(attr.value) ==> r.None?
    ensures r.Some? && r.value != YouTubePlaylist ==> !(explicit == Some("yt") && Contains(query, "playlist"))
    ensures explicit == Some("yt") && !Contains(query, "playlist") ==> r == Some(YouTubeTrack)
    ensures !Truthy(explicit) && attr.Attr? && Truthy(attr.value) ==>
      r == if attr.value == Some("yt") && Contains(query, "playlist") then Some(YouTubePlaylist) else Lookup(attr.value)
  {
    var key := ProviderKey(explicit, attr, query);
    if Truthy(key) then Lookup(key) else Lookup(AttrOr(attr, Some("yt")))
  }
}

=== FILE: Resolve.dfy ===
/** `_resolve_query_to_url_with_ytdlp`: the yt-dlp calls made for a query and the stream
    chosen from their answers. The extractor is given as `extract`, the URL test as `isUrl`. */
module Resolve {
  import opened Wrappers
  import opened Text
  import opened Audio

  /** One extractor call: the query and the cookie text written to a temporary cookie file
      (None: no cookie file). */
  datatype ExtractCall = ExtractCall(query: string, cookieText: Option<string>)

  /** What the extractor does with a call: raise, or return an info (None: a falsy one). */
  datatype ExtractAnswer = ExtractRaised | Extracted(info: Option<Info>)

  /** The cookie text is written to a file only when it is non-empty. */
  function CookieFile(cookies: Option<string>): (r: Option<string>)
    ensures r.Some? <==> Truthy(cookies)
    ensures r.Some? ==> r == cookies
  {
    if Truthy(cookies) then cookies else None
  }

  /** A query that is not a URL becomes a YouTube search of it. */
  function SearchQuery(query: string, isUrl: string -> bool): (r: string)
    ensures isUrl(query) ==> r == query
    ensures !isUrl(query) ==> |r| == |query| + 9 && r[..9] == "ytsearch:" && r[9..] == query
  {
    if isUrl(query) then query else "ytsearch:" + query
  }

  /** The page (or else the stream) URL of the first entry of a collection, when truthy. */
  function FollowUpUrl(info: Info): (r: Option<string>)
    ensures r.Some? ==> info.entries != [] && r.value != ""
    ensures r.Some? ==> r == info.entries[0].webpageUrl || r == info.entries[0].url
    ensures info.entries != [] && Truthy(info.entries[0].webpageUrl) ==> r == info.entries[0].webpageUrl
    ensures info.entries != [] && !Truthy(info.entries[0].webpageUrl) ==>
      r == (if Truthy(info.entries[0].url) then info.entries[0].url else None)
  {
    if info.entries == [] then None
    else
      var entry := info.entries[0];
      var url := if Truthy(entry.webpageUrl) then entry.webpageUrl else entry.url;
      if Truthy(url) then url else None
  }

  /** The stream chosen (if any) and every extractor call made, in order. */
  datatype Resolution = Resolution(chosen: Option<Choice>, calls: seq<ExtractCall>)

  /** The answer the choice is made from: the first call's, or the retry's when the first raised. */
  function MainAnswer(calls: seq<ExtractCall>, extract: ExtractCall -> ExtractAnswer): (a: ExtractAnswer)
    requires calls != []
    ensures a.ExtractRaised? ==> extract(calls[0]).ExtractRaised?
    ensures |calls| <= 2 && (|calls| == 2 <==> extract(calls[0]).ExtractRaised?) ==> a == extract(calls[|calls| - 1])
  {
    var a := extract(calls[0]);
    if a.ExtractRaised? && |calls| >= 2 then extract(calls[1]) else a
  }

  /** The first call, and its retry without cookies when it raises. */
  function FirstCalls(query: string, cookies: Option<string>, extract: ExtractCall -> ExtractAnswer): (calls: seq<ExtractCall>)
    ensures 1 <= |calls| <= 2 && calls[0] == ExtractCall(query, CookieFile(cookies))
    ensures |calls| == 2 <==> extract(calls[0]).ExtractRaised?
    ensures |calls| == 2 ==> calls[1] == ExtractCall(query, None)
  {
    var first := ExtractCall(query, CookieFile(cookies));
    if extract(first).ExtractRaised? then [first, ExtractCall(query, None)] else [first]
  }

  /** The choice made from the main answer: nothing from a raise or a falsy info, the answer's own
      stream if it has one, else the stream of one follow-up call on the first entry's URL. */
  function FromAnswer(answer: ExtractAnswer, calls: seq<ExtractCall>, cookies: Option<string>,
                      extract: ExtractCall -> ExtractAnswer): (r: Resolution)
    ensures r.calls == calls || (|r.calls| == |calls| + 1 && r.calls[..|calls|] == calls)
  {
    if !answer.Extracted? || answer.info.None? then Resolution(None, calls)
    else
      var chosen := ChooseAudio(answer.info);
      if chosen.Some? then Resolution(chosen, calls)
      else match FollowUpUrl(answer.info.value)
        case None => Resolution(None, calls)
        case Some(url) =>
          var followUp := ExtractCall(url, CookieFile(cookies));
          var second := extract(followUp);
          assert (calls + [followUp])[..|calls|] == calls;
          Resolution(if second.Extracted? then ChooseAudio(second.info) else None, calls + [followUp])
  }

  /** The calls made for the extractor query `query` and the choice made from their answers. */
  function ResolveSearch(query: string, cookies: Option<string>, extract: ExtractCall -> ExtractAnswer): (r: Resolution)
    ensures 1 <= |r.calls| <= 3 && r.calls[0] == ExtractCall(query, CookieFile(cookies))
  {
    var calls := FirstCalls(query, cookies, extract);
    FromAnswer(MainAnswer(calls, extract), calls, cookies, extract)
  }

  /** The query is stripped and searched unless it is a URL, with the cookies if there are any;
      a raising call is retried once without cookies; when the answer has no stream of its own
      the first entry's page is extracted once more, with the cookies again. */
  function ResolveQuery(rawQuery: string, cookies: Option<string>, isUrl: string -> bool,
                        extract: ExtractCall -> ExtractAnswer): (r: Resolution)
    ensures 1 <= |r.calls| <= 3
    ensures r.calls[0] == ExtractCall(SearchQuery(Strip(rawQuery, Whitespace), isUrl), CookieFile(cookies))
  {
    ResolveSearch(SearchQuery(Strip(rawQuery, Whitespace), isUrl), cookies, extract)
  }

  /** The retry: exactly when the first call raises, the same query again without cookies; when
      that raises too, nothing is chosen and no other call is made. */
  lemma RetryStep(query: string, cookies: Option<string>, extract: ExtractCall -> ExtractAnswer)
    ensures var r := ResolveSearch(query, cookies, extract);
      && (extract(r.calls[0]).ExtractRaised? ==>
            |r.calls| >= 2 && r.calls[1] == ExtractCall(query, None))
      && (!extract(r.calls[0]).ExtractRaised? ==> |r.calls| <= 2)
      && (extract(r.calls[0]).ExtractRaised? && extract(r.calls[1]).ExtractRaised? ==>
            r == Resolution(None, r.calls[..2]))
  {
    var calls := FirstCalls(query, cookies, extract);
    var r := ResolveSearch(query, cookies, extract);
    assert r.calls[..|calls|] == calls;
  }

  /** The answer the choice is made from: a falsy one ends the resolution, and one with a stream
      of its own gives that stream without a follow-up. */
  lemma MainAnswerStep(query: string, cookies: Option<string>, extract: ExtractCall -> ExtractAnswer)
    ensures var r := ResolveSearch(query, cookies, extract);
      var calls := FirstCalls(query, cookies, extract);
      var a := MainAnswer(calls, extract);
      && (a == Extracted(None) ==> r == Resolution(None, calls))
      && (a.Extracted? && ChooseAudio(a.info).Some? ==> r == Resolution(ChooseAudio(a.info), calls))
  {
  }

  /** The follow-up: a call beyond the first ones is made exactly when the main answer has no
      stream and its first entry has a URL; it extracts that URL with the cookies again, and
      its answer gives the choice. */
  lemma FollowUpStep(query: string, cookies: Option<string>, extract: ExtractCall -> ExtractAnswer)
    ensures var r := ResolveSearch(query, cookies, extract);
      var calls := FirstCalls(query, cookies, extract);
      var a := MainAnswer(calls, extract);
      |r.calls| > |calls| ==>
        && a.Extracted? && a.info.Some? && ChooseAudio(a.info).None?
        && FollowUpUrl(a.info.value).Some?
        && r.calls == calls + [ExtractCall(FollowUpUrl(a.info.value).value, CookieFile(cookies))]
        && r.chosen == (var b := extract(r.calls[|calls|]); if b.Extracted? then ChooseAudio(b.info) else None)
    ensures var r := ResolveSearch(query, cookies, extract);
      var calls := FirstCalls(query, cookies, extract);
      var a := MainAnswer(calls, extract);
      a.Extracted? && a.info.Some? && ChooseAudio(a.info).None? && FollowUpUrl(a.info.value).Some? ==>
        |r.calls| == |calls| + 1
  {
  }

  /** A choice comes from the main answer when no call was added, else from the follow-up's. */
  lemma FromAnswerChosen(answer: ExtractAnswer, calls: seq<ExtractCall>, cookies: Option<string>,
                         extract: ExtractCall -> ExtractAnswer)
    ensures var r := FromAnswer(answer, calls, cookies, extract);
      r.chosen.Some? ==>
        if r.calls == calls then answer.Extracted? && r.chosen == ChooseAudio(answer.info)
        else (|r.calls| == |calls| + 1
          && extract(r.calls[|calls|]).Extracted? && r.chosen == ChooseAudio(extract(r.calls[|calls|]).info))
  {
    if answer.Extracted? && answer.info.Some? && ChooseAudio(answer.info).None? {
      match FollowUpUrl(answer.info.value)
      case None =>
      case Some(url) =>
        var followUp := ExtractCall(url, CookieFile(cookies));
        assert (calls + [followUp])[|calls|] == followUp;
    }
  }

  /** Whatever is chosen was chosen by `ChooseAudio` from the answer to the last call. */
  lemma ChosenFromLastCall(query: string, cookies: Option<string>, extract: ExtractCall -> ExtractAnswer)
    ensures var r := ResolveSearch(query, cookies, extract);
      r.chosen.Some? ==>
        var b := extract(r.calls[|r.calls| - 1]);
        b.Extracted? && r.chosen == ChooseAudio(b.info)
  {
    var calls := FirstCalls(query, cookies, extract);
    var a := MainAnswer(calls, extract);
    assert a == extract(calls[|calls| - 1]);
    FromAnswerChosen(a, calls, cookies, extract);
  }

  /** A URL query is sent to the extractor as it is, and only stripped. */
  lemma UrlQueryUnchanged(rawQuery: string, cookies: Option<string>, isUrl: string -> bool,
                          extract: ExtractCall -> ExtractAnswer)
    requires isUrl(Strip(rawQuery, Whitespace))
    ensures ResolveQuery(rawQuery, cookies, isUrl, extract).calls[0].query == Strip(rawQuery, Whitespace)
  {
  }

  /** An empty cookie text is the same as no cookies at all. */
  lemma EmptyCookiesAreNoCookies(query: string, extract: ExtractCall -> ExtractAnswer)
    ensures ResolveSearch(query, Some(""), extract) == ResolveSearch(query, None, extract)
  {
    assert CookieFile(Some("")) == CookieFile(None);
    var calls := FirstCalls(query, None, extract);
    assert FirstCalls(query, Some(""), extract) == calls;
    var a := MainAnswer(calls, extract);
    assert FromAnswer(a, calls, Some(""), extract) == FromAnswer(a, calls, None, extract);
  }

  /** Without cookies the retry repeats the first call exactly. */
  lemma RetryWithoutCookiesRepeats(rawQuery: string, isUrl: string -> bool, extract: ExtractCall -> ExtractAnswer)
    requires extract(ResolveQuery(rawQuery, None, isUrl, extract).calls[0]).ExtractRaised?
    ensures var calls := ResolveQuery(rawQuery, None, isUrl, extract).calls;
      calls[1] == calls[0]
  {
  }
}

=== FILE: Text.dfy ===
/** The Python `str` operations that the cog applies to queries, URLs and messages. */
module Text {
  import opened Wrappers

  /** Python truthiness of an optional string: present and not empty. */
  predicate Truthy(s: Option<string>)
  {
    s.Some? && s.value != ""
  }

  /** `sub in s`. */
  predicate Contains(s: string, sub: string)
    decreases |s|
  {
    |sub| <= |s| && (s[..|sub|] == sub || Contains(s[1..], sub))
  }

  /** Every slice of a string occurs in it. */
  lemma {:induction false} ContainsSlice(s: string, i: nat, j: nat)
    requires i <= j <= |s|
    ensures Contains(s, s[i..j])
    decreases i
  {
    if i == 0 {
      assert s[..j - i] == s[i..j];
    } else {
      ContainsSlice(s[1..], i - 1, j - 1);
      assert s[1..][i - 1..j - 1] == s[i..j];
    }
  }

  /** The characters Python's argument-less `strip()` removes that this model knows of:
      the ASCII whitespace and separators, NEL and NO-BREAK SPACE. */
  const Whitespace: set<char> :=
    {' ', '\t', '\n', '\r', '\U{B}', '\U{C}', '\U{1C}', '\U{1D}', '\U{1E}', '\U{1F}', '\U{85}', '\U{A0}'}

  /** `s.lstrip(chars)`: drops the longest prefix made of `chars`. */
  function LStrip(s: string, chars: set<char>): (r: string)
    ensures |r| <= |s| && r == s[|s| - |r|..]
    ensures forall i :: 0 <= i < |s| - |r| ==> s[i] in chars
    ensures r == [] || r[0] !in chars
    decreases |s|
  {
    if s != [] && s[0] in chars then LStrip(s[1..], chars) else s
  }

  /** `s.rstrip(chars)`: drops the longest suffix made of `chars`. */
  function RStrip(s: string, chars: set<char>): (r: string)
    ensures |r| <= |s| && r == s[..|r|]
    ensures forall i :: |r| <= i < |s| ==> s[i] in chars
    ensures r == [] || r[|r| - 1] !in chars
    decreases |s|
  {
    if s != [] && s[|s| - 1] in chars then RStrip(s[..|s| - 1], chars) else s
  }

  /** `r` is `s[a..a + |r|]`, everything of `s` before and after that slice is in `chars`, and
      `r` neither starts nor ends with a character of `chars`. */
  predicate StrippedAt(s: string, chars: set<char>, a: int, r: string)
  {
    && 0 <= a && a + |r| <= |s|
    && (forall k :: 0 <= k < |r| ==> r[k] == s[a + k])
    && (forall i :: 0 <= i < a ==> s[i] in chars)
    && (forall i :: a + |r| <= i < |s| ==> s[i] in chars)
    && (r == [] || (r[0] !in chars && r[|r| - 1] !in chars))
  }

  /** `s.strip(chars)`: the slice left after dropping the longest prefix and the longest suffix
      made of `chars`; the prefix is as long as the one `LStrip` drops. */
  function Strip(s: string, chars: set<char>): (r: string)
    ensures StrippedAt(s, chars, |s| - |LStrip(s, chars)|, r)
    ensures r == [] <==> forall i :: 0 <= i < |s| ==> s[i] in chars
  {
    var l := LStrip(s, chars);
    var r := RStrip(l, chars);
    StripShape(s, chars, l, r);
    StrippedEmpty(s, chars, |s| - |l|, r);
    r
  }

  /** A stripped slice is empty exactly when every character of `s` is in `chars`. */
  lemma StrippedEmpty(s: string, chars: set<char>, a: int, r: string)
    requires StrippedAt(s, chars, a, r)
    ensures r == [] <==> forall i :: 0 <= i < |s| ==> s[i] in chars
  {
    if r != [] {
      assert s[a] == r[0];
    }
  }

  /** A suffix `l` of `s` after a prefix made of `chars`, cut down to a prefix `r` of `l` before
      a suffix made of `chars`, is `s` stripped at `|s| - |l|`, given that neither cut can go
      further. */
  lemma StripShape(s: string, chars: set<char>, l: string, r: string)
    requires |l| <= |s| && l == s[|s| - |l|..] && (forall i :: 0 <= i < |s| - |l| ==> s[i] in chars)
    requires l == [] || l[0] !in chars
    requires |r| <= |l| && r == l[..|r|] && (forall i :: |r| <= i < |l| ==> l[i] in chars)
    requires r == [] || r[|r| - 1] !in chars
    ensures StrippedAt(s, chars, |s| - |l|, r)
  {
    var a := |s| - |l|;
    forall k | 0 <= k < |r| ensures r[k] == s[a + k] {
      assert r[k] == l[k];
    }
    forall i | a + |r| <= i < |s| ensures s[i] in chars {
      assert s[i] == l[i - a];
    }
    assert r == [] || r[0] == l[0];
  }

  /** Stripping twice is stripping once, so the cog's second `strip()` of an already
      normalised query changes nothing. */
  lemma StripIdempotent(s: string, chars: set<char>)
    ensures Strip(Strip(s, chars), chars) == Strip(s, chars)
  {
    var r := Strip(s, chars);
    assert LStrip(r, chars) == r;
  }

  /** `s.split("/")[-1]`: the text after the last '/', or the whole string when it has none. */
  function AfterLastSlash(s: string): (r: string)
    ensures |r| <= |s| && r == s[|s| - |r|..]
    ensures '/' !in r
    ensures |r| == |s| || s[|s| - |r| - 1] == '/'
    decreases |s|
  {
    if s == [] || s[|s| - 1] == '/' then [] else AfterLastSlash(s[..|s| - 1]) + [s[|s| - 1]]
  }

  /** The numeric value of a string of decimal digits. */
  function DecimalValue(s: string): nat
    decreases |s|
  {
    if s == [] then 0
    else 10 * DecimalValue(s[..|s| - 1]) + (if '0' <= s[|s| - 1] <= '9' then (s[|s| - 1] - '0') as nat else 0)
  }

  /** `str(n)` for a natural number. */
  function DecimalString(n: nat): (r: string)
    ensures 1 <= |r| && forall i :: 0 <= i < |r| ==> '0' <= r[i] <= '9'
    ensures r[0] == '0' ==> n == 0
    ensures DecimalValue(r) == n
  {
    var d := ['0' + (n % 10) as char];
    if n < 10 then d else DecimalString(n / 10) + d
  }
}

=== FILE: Wrappers.dfy ===
/** Optional values: Python's `None` versus a present value. */
module Wrappers {

  datatype Option<+T> = None | Some(value: T) {

    /** `x or default` for a value whose only falsy form is `None`. */
    function GetOr(default: T): T
    {
      match this
      case Some(v) => v
      case None => default
    }
  }
}
